=== FILE: README.md ===
# spacehogs, modelled in Dafny

spacehogs is a command-line tool that finds the large files and directories
under a directory. It takes a directory, a minimum size and an optional
`--exclude` list of names (default `proc,dev,sys`). It walks the tree in
parallel, one goroutine per subdirectory, and adds up the bytes of every file
it can stat. Each file and each subdirectory whose size reaches the threshold
is recorded, and so is the scanned directory itself. It then prints the
records: directories first, then larger sizes first, then paths in ascending
order.

This project models the core of that tool:

- the recursive walk `walkDirRecursive` as a fold over a directory tree
  (modules `FsTree`, `Walk`, `WalkLoop`);
- its records as a multiset that `addResult` inserts into (`Entries`);
- a reference definition of what the walk reaches and reports (`Reach`), and
  the properties proved against it (`WalkProps`, `Recording`, `Exclusion`);
- the unit selection in `humanReadableSize` (`Units`);
- the comparator handed to `sort.Slice` in `run` and the listing it produces
  (`Order`);
- the construction of the exclude set from the flag (`ExcludeSet`);
- the part of `run` after flag parsing (`TopLevel`): the top-level exclusion
  check, the not-a-directory check, the scan, the record for the scanned
  directory and the sort;
- the example directory trees and expectations of the repository's tests
  (`Scenarios`).

The goroutines, the size channel and the mutex only decide the order in which
subdirectory totals are added and records appended. The walk is therefore a
sequential fold returning `WalkResult(total, found)`, with `found` a
multiset. `ListingOrderIrrelevant` shows that the order of a listing does not
matter. `ListingIndependentOfArrival` and `ListingDetermined` show that the
printed order does not depend on the order in which records arrived. The
imperative structure is modelled separately in `WalkLoop.WalkDirRecursive`:
a first loop over the entries, subdirectory totals sent to a channel, and a
second loop that drains the channel. It is proved to compute exactly the fold.

A file system tree is a `Node`. A `File` carries a size and whether
`entry.Info()` succeeds. A `Dir` carries children and whether `os.ReadDir`
succeeds. Anything `os.ReadDir` does not report as a directory counts as a
file, symbolic links included. Entry names are the names `os.ReadDir`
returns: never empty, never "." or "..", and free of "/" (the subset type
`Entries.Name`). `filepath.Join(dir, name)` cleans its result, and for a
clean directory path and such a name that comes to: `name` when the
directory is "." (or empty), `dir + name` when the directory already ends in
"/" (only the root "/"), and `dir + "/" + name` otherwise. `filepath.Base` is modelled as Go defines it for slash-separated
paths: `"."` for the empty path, trailing separators ignored, `"/"` for a
path of only separators.

## Model

| member | source | states |
|---|---|---|
| Entries.AddResult | spacehogs.go:69-74 | the record inserted is counted once more, every other record is unchanged, and the collection grows by one |
| Entries.BaseShape | spacehogs.go:172-173 | the base name of a path is never empty, and is either "/" or free of separators |
| Entries.BaseOfJoin | spacehogs.go:94 | the base name of dir/name is name, for every entry name the file system can return |
| Entries.BaseIgnoresTrailingSeparator | spacehogs.go:169-173 | a trailing separator on a non-empty path does not change its base name |
| Entries.JoinIsBeneath | spacehogs.go:94 | the joined path of an entry, and every path at or under it, lies strictly beneath the directory: it extends the directory's join prefix and its first name after that prefix is the entry's name, also for the directories "." and "/" |
| Entries.NoEmptySegmentBeneath | spacehogs.go:94 | no path whose first name after the directory's join prefix is empty lies beneath it; for "." that is every absolute path |
| Entries.NoDotSegmentBeneath | spacehogs.go:94 | no path whose first name after the directory's join prefix is "." or ".." lies beneath it |
| Entries.SiblingsDisjoint | spacehogs.go:88-105 | the subtrees under two differently named entries of one directory share no path |
| Walk.WalkDirBounds | spacehogs.go:77-130 | every record of a walk lies strictly beneath the walked path (after its join prefix, starting with an entry name), reaches the threshold and is no larger than the returned total |
| Reach.WalkMatchesReference | spacehogs.go:88-118 | the walk of a listing returns exactly the reference result: the byte sum of the stat-able files reached, and one record per reached directory or stat-able file whose size reaches the threshold |
| Reach.VisitMatchesReference | spacehogs.go:88-117 | one iteration of the entry loop returns the reference result for everything reached through that entry |
| WalkProps.ListingOrderIrrelevant | spacehogs.go:86-127 | two listings holding the same entries in any order give the same total and the same records |
| WalkProps.DirTotalIsDiskUsage | spacehogs.go:77-130 | a readable directory's total is the sum of the sizes of the stat-able files reached beneath it, skipping excluded names; an unreadable one's total is 0 |
| WalkProps.TotalIgnoresThreshold | spacehogs.go:101-116 | the total does not depend on the threshold |
| WalkProps.RaisingThresholdFilters | spacehogs.go:101-115 | a higher threshold keeps exactly the records of a lower one whose size reaches the higher threshold, and adds none |
| WalkProps.RootNeverRecorded | spacehogs.go:94-117 | the walk never records the directory it was called on |
| WalkProps.UnreadableDirCountsZero | spacehogs.go:78-82 | a subdirectory that cannot be read contributes 0 bytes and nothing beneath it; it is recorded itself, with size 0, only when the threshold is 0 |
| WalkProps.SkippedEntriesContributeNothing | spacehogs.go:88-111 | an excluded entry, and a file whose stat fails, contribute neither bytes nor records |
| WalkProps.FileRecordedIffLargeEnough | spacehogs.go:106-117 | a stat-able file adds its size to the total; its records are exactly one file record for dir/name when its size reaches the threshold, and none otherwise |
| WalkProps.SubdirRecordedIffLargeEnough | spacehogs.go:96-105 | a subdirectory adds its walked total to the parent's and is recorded once with that total exactly when the total reaches the threshold; no other record carries its path, and the records at other paths are those from beneath it |
| Recording.RecordingRule | spacehogs.go:96-117 | a record is found exactly when it is the record of a reached directory or stat-able file and its size reaches the threshold |
| Recording.RecordedOnce | spacehogs.go:88-117 | in a tree whose directories never list a name twice, every record is found at most once and no two records share a path |
| Exclusion.ExcludedSubtreesInvisible | spacehogs.go:88-92 | walking a tree equals walking the tree with every excluded entry removed at every depth |
| Exclusion.ExcludedPathsAbsent | spacehogs.go:88-92 | nothing at or under the path of an excluded entry is recorded, and each entry with an excluded name contributes nothing |
| Exclusion.PruneAllIsFree | spacehogs.go:88-92 | the pruned tree holds no excluded name anywhere |
| WalkLoop.ScanListing | spacehogs.go:84-127 | the loop over the entries and the drain of the channel together compute the fold's total and records |
| WalkLoop.Iterate | spacehogs.go:88-118 | one pass of the first loop, from a state that accounts for the earlier entries, leaves a state that accounts for one more entry, and adds at most one size to the end of the channel |
| WalkLoop.VisitEntry | spacehogs.go:88-117 | one iteration sends nothing for a file, whose bytes are added directly; for a subdirectory it adds no bytes directly and sends exactly one total, the recursive walk's, exactly when the name is not excluded; together these give the fold's contribution |
| WalkLoop.Drain | spacehogs.go:120-129 | draining the channel adds every size sent to the running total |
| WalkLoop.WalkDirRecursive | spacehogs.go:77-130 | the imperative walk, recursing into each subdirectory, returns the fold's total and records, and every record lies beneath the path, reaches the threshold and is at most the total |
| Units.SelectScale | spacehogs.go:56-65 | for every uint64 size, sizes below 1024 are rendered in bytes; otherwise the chosen divisor is 1024^(exp+1), size / div lies in [1, 1024), the prefix letter exists in "KMGTPE", and div fits an int64 |
| Units.ScaleUnique | spacehogs.go:56-65 | at most one unit fits a size, so the loop's choice is the only correct one |
| Units.ExpBound | spacehogs.go:62-66 | a uint64 size never pushes the exponent beyond 5, the index of "E" |
| Units.DecimalRoundTrip | spacehogs.go:57-58 | the digits printed for a count read back as that count |
| Units.Decimal | spacehogs.go:58 | the digits of a count are decimal digits with no leading zero; the first digit is "0" exactly for 0 |
| Units.ByteRendering | spacehogs.go:57-58 | a size below 1024 prints as its decimal digits followed by " B", with no leading zero, and the digits denote the size |
| Order.BeforeIrreflexive | spacehogs.go:209-217 | no record sorts before itself |
| Order.BeforeTransitive | spacehogs.go:209-217 | the comparator is transitive |
| Order.BeforeExactlyOne | spacehogs.go:209-217 | of two different records exactly one sorts before the other, so the comparator is a strict total order |
| Order.PathLessTrichotomous | spacehogs.go:216 | two different paths are ordered one way by string comparison, never both |
| Order.SortedShape | spacehogs.go:208-217 | in a sorted listing every directory precedes every file, sizes descend within each kind, and equal sizes of one kind are in ascending path order |
| Order.SortResults | spacehogs.go:208-217 | the sorted listing is in the comparator's order and is a permutation of the records |
| Order.SortedUnique | spacehogs.go:208-217 | two sorted permutations of the same records are equal, so an unstable sort still has one answer |
| Order.ListingIndependentOfArrival | spacehogs.go:96-105 | records that arrived in any two orders sort to the same listing |
| ExcludeSet.TrimSpaceShape | spacehogs.go:159 | TrimSpace keeps a middle slice whose two margins are all white space and whose first and last characters are not |
| ExcludeSet.TrimSpaceIsMiddle | spacehogs.go:159 | any such split into margins and middle is the one TrimSpace makes |
| ExcludeSet.TrimmedClean | spacehogs.go:159 | trimming adds no character and trimming twice is trimming once |
| ExcludeSet.SplitShape | spacehogs.go:158 | no piece of a split holds the separator, and joining the pieces with it gives back the flag |
| ExcludeSet.SplitJoin | spacehogs.go:158 | splitting pieces joined by a separator they do not hold gives the pieces back |
| ExcludeSet.NonEmptyNamesMembers | spacehogs.go:160-162 | a name is kept exactly when it is non-empty and among the trimmed pieces |
| ExcludeSet.ExcludeSetMembers | spacehogs.go:155-164 | a name is excluded exactly when it is non-empty and some comma-separated piece of the flag trims to it |
| ExcludeSet.ExcludedNamesClean | spacehogs.go:155-164 | no excluded name is empty, holds a comma or has white space at either end, and the empty flag excludes nothing |
| ExcludeSet.CollectTrimmed | spacehogs.go:158-163 | the loop collects exactly the non-empty trimmed pieces |
| ExcludeSet.BuildExcludeSet | spacehogs.go:155-164 | the map built from the flag holds exactly the names of the exclude set |
| TopLevel.TopLevelExclusion | spacehogs.go:172-176 | run stops with nothing scanned exactly when some comma-separated piece of the flag trims to the base name of the scanned path |
| TopLevel.NotExcludedScans | spacehogs.go:183-201 | when no piece of the flag names the path's base, run lists exactly when the path is a directory and refuses it as not a directory otherwise |
| TopLevel.ScanTotalIsDiskUsage | spacehogs.go:200-201 | the reported total is the disk usage of the scanned directory, or 0 when it cannot be read |
| TopLevel.RootRecordedIffLargeEnough | spacehogs.go:200-206 | the scanned directory is recorded once with the total exactly when the total reaches the threshold; every other record lies beneath it, reaches the threshold and is at most the total |
| TopLevel.Run | spacehogs.go:155-217 | run's outcome is the one the scan defines, and when it lists, the listing is sorted and holds exactly the records found; otherwise nothing is listed |
| TopLevel.Arrive | spacehogs.go:22-25 | the records reach the result slice in some order, each as often as it was added |
| TopLevel.ListingDetermined | spacehogs.go:208-217 | whatever the arrival order, run's listing is the unique sorted arrangement of the records |
| Scenarios.BasicTraversal | spacehogs_test.go:114-131 | for any root path, three small files at threshold 1: total 11, every file and both subdirectories recorded |
| Scenarios.SmallFileFiltered | spacehogs_test.go:132-144 | for any root path, a 1-byte file at threshold 5 is counted in the total 6 but not recorded |
| Scenarios.SmallDirectoryFiltered | spacehogs_test.go:145-158 | for any root path, a 3-byte directory at threshold 5 is counted in the total 9 but neither it nor its file is recorded |
| Scenarios.ExcludedDirectorySkipped | spacehogs_test.go:159-174 | for any root path, an excluded directory adds neither bytes nor records: total 8 and three records |
| Scenarios.ByteRenderings | spacehogs_test.go:85-87 | 0, 100 and 1023 print as "0 B", "100 B" and "1023 B" |
| Scenarios.UnitChoices | spacehogs_test.go:87-94 | 1023, 1536, 1024^2, 2 * 1024^3 and 2345678901234 get exactly the units their expected strings show (B, KiB, MiB, GiB, TiB), and no other unit fits them |
| Scenarios.UnitBoundaries | spacehogs_test.go:85-93 | 0 and 100 get bytes, and 1024, 1.5 * 1024^2 and 1024^4, at or between unit boundaries, get exactly KiB, MiB and TiB |
| Scenarios.UnitLabels | spacehogs.go:66 | the four binary scales the tests reach are labelled KiB, MiB, GiB and TiB |
| Scenarios.DefaultExcluded | spacehogs.go:136 | a flag that splits like the default excludes exactly proc, dev and sys |
| Scenarios.BlanksAndEmptyPieces | spacehogs.go:158-162 | blanks around names are trimmed and a blank piece is dropped |
| Scenarios.SingleExclude | spacehogs_test.go:269 | -exclude=excluded_dir excludes just that name |
| Scenarios.TopLevelDirectoryExcluded | spacehogs_test.go:267-278 | scanning the excluded directory itself stops before the scan |
| Scenarios.PathIsNotADirectory | spacehogs_test.go:252-266 | a path naming a file is refused as not a directory |
| Scenarios.SuccessfulScan | spacehogs_test.go:279-298 | for any scanned path whose base name is not excluded, the successful run's tree at 1K gives total 2053 and records for subdir, subdir/file2.txt and the scanned directory |
| Scenarios.SuccessfulPaths | spacehogs_test.go:290-296 | the recorded paths below any scanned path end in "subdir" and "subdir/file2.txt", the text the output must contain |
| Scenarios.SuccessfulRun | spacehogs_test.go:279-298 | for any such path, the records are listed as the scanned directory, then its subdir, then subdir/file2.txt, and in no other order |
| Scenarios.BeneathCurrentDirectory | spacehogs.go:94 | "/etc/passwd", "../x", ".." and "./a" are not beneath the current directory "." |
| Scenarios.CurrentDirectoryScan | spacehogs.go:166-206 | scanning "." records "subdir", "subdir/file2.txt" and "." itself, with no "./" in front of any path |

## Left out

- parseSize: it parses a decimal number with `strconv.ParseFloat` and
  multiplies it as a float64. The model takes the threshold as an already
  parsed natural number.
- The `%.2f` part of humanReadableSize: floating-point division and
  formatting. Only the choice of unit and divisor, and the exact rendering
  below 1024, are modelled.
- Command-line parsing: the argument count check, flag errors, usage text and
  every message printed to stdout or stderr.
- The order of the checks in run: run checks the top-level exclusion before
  it parses the size. An excluded directory with an invalid size therefore
  succeeds. `TopLevel.Scan` starts from a parsed threshold, so this
  interleaving is not modelled.
- The `os.Stat` failure for a path that does not exist: the root node is
  given, so only the not-a-directory outcome is modelled.
- filepath.Clean: the scanned path is assumed to be already clean. Join is
  modelled for a clean directory path and an entry name `os.ReadDir` can
  return; other arguments never reach it.
- Symbolic links and special files count as files with whatever size `Info`
  reports. Hard links and files seen twice are not deduplicated, as in the
  source.
- Walk.WalkDir: totals are unbounded naturals. A tree whose sizes add up to
  more than 2^64 - 1 bytes can be written down; for it the model returns the
  true sum, where the source's uint64 total wraps around.
- The goroutines, the WaitGroup, the buffered channel and the mutex. Only
  their effect is modelled: totals are summed and records appended in an
  order that is left open.
- The algorithm and stability of sort.Slice. The comparator is a strict
  total order on records, so every correct sort gives the one listing
  `Order.SortedUnique` describes. `Order.SortResults` is an insertion sort
  standing in for it.
- Invalid UTF-8: every string of the model, whether a path, an entry name, a
  flag or a record's path, is a sequence of Unicode scalar values. File
  names and flags that are not valid UTF-8 are not modelled. For valid
  UTF-8, comparing scalar values in order (`Order.PathLess`) gives the same
  answer as Go's byte-by-byte string comparison. White space in
  strings.TrimSpace is the Unicode White_Space set that `unicode.IsSpace`
  reports.
- The scenarios that use the default flag or `-exclude=excluded_dir` take
  the flag as a parameter whose comma-separated pieces are given. The pieces
  of the literal flags are proved separately in `Scenarios.DefaultSplit`,
  `Scenarios.SingleSplit` and, for `Scenarios.BlanksAndEmptyPieces`,
  `Scenarios.BlanksSplit`.
- The test cases for invalid argument counts, invalid sizes and
  non-existent paths exercise the parts left out above.

=== FILE: entries.dfy ===
/** The record the scan reports for each space hog, the path arithmetic used to
    build those records' paths, and the append that collects them. */
module Entries {

  /** One reported file or directory: its path, its size in bytes, and whether
      it is a directory (the FileInfo struct). */
  datatype FileInfo = FileInfo(path: string, size: nat, isDir: bool)

  /** The separator filepath.Join puts between a directory and an entry name. */
  const Separator: char := '/'

  /** What filepath.Join(dir, name) puts in front of an entry name. Join
      cleans its result, so for a clean directory path that is nothing after
      "." (or the empty path), the directory itself after a path ending in the
      separator (the root "/"), and the directory and a separator otherwise. */
  function Prefix(dir: string): (r: string)
    ensures r == [] || r[|r| - 1] == Separator
  {
    if dir == [] || dir == "." then []
    else if dir[|dir| - 1] == Separator then dir
    else dir + [Separator]
  }

  /** filepath.Join(dir, name) for a clean directory path and a bare entry
      name. */
  function Join(dir: string, name: string): string
  {
    Prefix(dir) + name
  }

  /** `p` is a path Join builds strictly below the directory `dir`: it
      extends what Join puts in front of an entry name of `dir`, is not `dir`
      itself, and what follows that prefix starts with an entry name. So
      nothing beneath "." is absolute or climbs out through "..". */
  predicate Beneath(dir: string, p: string)
  {
    Prefix(dir) < p && p != dir && BareName(LeadingName(p[|Prefix(dir)|..]))
  }

  /** `p` names `dir` itself or something Join builds from it. */
  predicate AtOrUnder(dir: string, p: string)
  {
    p == dir || Prefix(dir) < p
  }

  /** A name os.ReadDir can hand back for one directory entry: not empty, not
      "." or "..", and free of the separator. */
  predicate BareName(name: string)
  {
    name != [] && name != "." && name != ".." && Separator !in name
  }

  /** The entry names a directory listing carries. */
  type Name = s: string | BareName(s) witness "a"

  /** addResult: appending one record under the mutex. The collection is an
      unordered multiset, so the append gains exactly one copy of the record and
      leaves every other record's multiplicity alone. */
  function AddResult(results: multiset<FileInfo>, path: string, size: nat, isDir: bool): (r: multiset<FileInfo>)
    ensures r[FileInfo(path, size, isDir)] == results[FileInfo(path, size, isDir)] + 1
    ensures forall e :: e != FileInfo(path, size, isDir) ==> r[e] == results[e]
    ensures |r| == |results| + 1
  {
    results + multiset{FileInfo(path, size, isDir)}
  }

  /** Joining a bare name never gives "." or the empty path and never ends in
      a separator, so Join puts `dir/name` plus a separator in front of the
      names below it. */
  lemma PrefixOfJoin(dir: string, name: string)
    requires BareName(name)
    ensures Prefix(Join(dir, name)) == Join(dir, name) + [Separator]
  {
    var q := Join(dir, name);
    assert q[|q| - 1] == name[|name| - 1];
    assert name[|name| - 1] in name;
  }

  /** A directory path is at most one character longer than what Join puts
      in front of its entry names. */
  lemma PrefixLength(dir: string)
    ensures |dir| <= |Prefix(dir)| + 1
  {
  }

  /** Whatever lies at or under `dir/name` lies strictly beneath `dir`, and
      its first name below `dir` is `name`. */
  lemma JoinIsBeneath(dir: string, name: string, p: string)
    requires BareName(name)
    requires AtOrUnder(Join(dir, name), p)
    ensures Beneath(dir, p)
    ensures LeadingName(p[|Prefix(dir)|..]) == name
    ensures p != dir
  {
    var q := Join(dir, name);
    var k := |Prefix(dir)|;
    PrefixOfJoin(dir, name);
    PrefixLength(dir);
    assert Prefix(dir) < q;
    if p == q {
      if Prefix(dir) == [] {
        assert p == name;
      }
      assert p[k..] == name + [];
      SegmentEndOf(name, []);
    } else {
      assert q + [Separator] < p;
      assert q <= p;
      assert p[k..] == name + p[k + |name|..];
      SegmentEndOf(name, p[k + |name|..]);
    }
  }

  /** Nothing beneath a directory starts with an empty name: a separator
      right after Join's prefix (for ".", an absolute path) is not beneath. */
  lemma NoEmptySegmentBeneath(dir: string, rest: string)
    ensures !Beneath(dir, Prefix(dir) + [Separator] + rest)
  {
    var p := Prefix(dir) + [Separator] + rest;
    assert p[|Prefix(dir)|..] == [Separator] + rest;
  }

  /** Nothing beneath a directory starts with the name "." or "..": a path
      that climbs out, or spells the directory again, is not beneath. */
  lemma NoDotSegmentBeneath(dir: string, d: string, rest: string)
    requires d == "." || d == ".."
    requires rest == [] || rest[0] == Separator
    ensures !Beneath(dir, Prefix(dir) + d + rest)
  {
    var p := Prefix(dir) + d + rest;
    assert p[|Prefix(dir)|..] == d + rest;
    SegmentEndOf(d, rest);
  }

  /** The subtrees of two different entries of one directory are disjoint:
      nothing lies both at or under `dir/m` and at or under `dir/n`. */
  lemma {:induction false} SiblingsDisjoint(dir: string, m: string, n: string, p: string)
    requires BareName(m) && BareName(n) && m != n
    requires AtOrUnder(Join(dir, m), p)
    ensures !AtOrUnder(Join(dir, n), p)
  {
    var k := |Prefix(dir)|;
    PrefixOfJoin(dir, m);
    PrefixOfJoin(dir, n);
    assert Join(dir, m)[..k] == Prefix(dir) == Join(dir, n)[..k];
    assert Join(dir, m)[k..] == m;
    assert Join(dir, n)[k..] == n;
    if AtOrUnder(Join(dir, n), p) {
      // Both `m` and `n` then sit at offset k of p, each followed by the end of
      // p or by a separator; as neither contains a separator they coincide.
      assert p[k..] == m || m + [Separator] <= p[k..] by {
        if p != Join(dir, m) {
          assert Join(dir, m) + [Separator] <= p;
          assert (Join(dir, m) + [Separator])[k..] == m + [Separator];
        }
      }
      assert p[k..] == n || n + [Separator] <= p[k..] by {
        if p != Join(dir, n) {
          assert Join(dir, n) + [Separator] <= p;
          assert (Join(dir, n) + [Separator])[k..] == n + [Separator];
        }
      }
      SameSegment(p[k..], m, n);
      assert false;
    }
  }

  /** Length of the leading name of `q`: the characters before its first
      separator, or all of `q` when it has none. */
  function SegmentEnd(q: string): (k: nat)
    ensures k <= |q|
  {
    if q == [] || q[0] == Separator then 0 else 1 + SegmentEnd(q[1..])
  }

  /** The leading name of `q`. */
  function LeadingName(q: string): string
  {
    q[..SegmentEnd(q)]
  }

  /** A separator-free name followed by the end of the path or by a separator
      is exactly the leading name of that path. */
  lemma {:induction false} SegmentEndOf(m: string, rest: string)
    requires Separator !in m
    requires rest == [] || rest[0] == Separator
    ensures SegmentEnd(m + rest) == |m|
  {
    if m == [] {
      assert m + rest == rest;
    } else {
      assert (m + rest)[0] == m[0];
      assert (m + rest)[1..] == m[1..] + rest;
      SegmentEndOf(m[1..], rest);
    }
  }

  /** Two separator-free names that both start `q`, each followed by the end of
      `q` or by a separator, are the same name. */
  lemma SameSegment(q: string, m: string, n: string)
    requires Separator !in m && Separator !in n
    requires q == m || m + [Separator] <= q
    requires q == n || n + [Separator] <= q
    ensures m == n
  {
    assert q == m + q[|m|..];
    SegmentEndOf(m, q[|m|..]);
    assert q == n + q[|n|..];
    SegmentEndOf(n, q[|n|..]);
    assert m == q[..|m|] == n;
  }

  /** `p` without its trailing separators. */
  function StripTrailing(p: string): string
  {
    if p != [] && p[|p| - 1] == Separator then StripTrailing(p[..|p| - 1]) else p
  }

  /** The characters of `p` after its last separator (all of `p` when it has
      none). */
  function LastElement(p: string): string
  {
    if p == [] || p[|p| - 1] == Separator then [] else LastElement(p[..|p| - 1]) + [p[|p| - 1]]
  }

  /** filepath.Base: the last element of `p` once trailing separators are
      dropped; "." for the empty path and the separator alone for a path of
      separators. */
  function Base(p: string): string
  {
    if p == [] then "."
    else
      var last := LastElement(StripTrailing(p));
      if last == [] then [Separator] else last
  }

  /** The last element never holds a separator, and Base is never empty. */
  lemma {:induction false} BaseShape(p: string)
    ensures Base(p) != []
    ensures Base(p) == [Separator] || Separator !in Base(p)
  {
    if p != [] {
      LastElementFree(StripTrailing(p));
    }
  }

  /** The last element of any path holds no separator. */
  lemma {:induction false} LastElementFree(p: string)
    ensures Separator !in LastElement(p)
  {
    if p != [] && p[|p| - 1] != Separator {
      LastElementFree(p[..|p| - 1]);
    }
  }

  /** Base undoes Join: the base of `dir/name` is `name`. */
  lemma BaseOfJoin(dir: string, name: string)
    requires BareName(name)
    ensures Base(Join(dir, name)) == name
  {
    var p := Join(dir, name);
    assert p[|p| - 1] == name[|name| - 1];
    assert StripTrailing(p) == p;
    LastElementAfter(Prefix(dir), name);
  }

  /** The last element of a bare name, alone or after a separator, is that
      name. */
  lemma {:induction false} LastElementAfter(d: string, name: string)
    requires d == [] || d[|d| - 1] == Separator
    requires Separator !in name
    ensures LastElement(d + name) == name
    decreases |name|
  {
    if name == [] {
      assert d + name == d;
    } else {
      var init := name[..|name| - 1];
      assert (d + name)[..|d + name| - 1] == d + init;
      LastElementAfter(d, init);
      assert init + [name[|name| - 1]] == name;
    }
  }

  /** A path of one bare name is its own base. */
  lemma BaseOfBareName(name: string)
    requires BareName(name)
    ensures Base(name) == name
  {
    assert name[|name| - 1] in name;
    assert StripTrailing(name) == name;
    LastElementAfter([], name);
    assert [] + name == name;
  }

  /** Trailing separators do not change the base of a non-empty path. */
  lemma BaseIgnoresTrailingSeparator(p: string)
    requires p != []
    ensures Base(p + [Separator]) == Base(p)
  {
    assert (p + [Separator])[..|p|] == p;
  }
}

=== FILE: excludeset.dfy ===
/** Building the exclude set from the --exclude flag: split on commas, trim
    each piece, drop the empty ones. */
module ExcludeSet {

  /** The --exclude default. */
  const DefaultFlag: string := "proc,dev,sys"

  /** The characters strings.TrimSpace removes: Unicode White_Space, the set
      unicode.IsSpace reports. */
  predicate IsSpace(c: char)
  {
    || ('\t' <= c <= '\r') || c == ' ' || c == '\U{0085}' || c == '\U{00A0}' || c == '\U{1680}'
    || ('\U{2000}' <= c <= '\U{200A}') || c == '\U{2028}' || c == '\U{2029}' || c == '\U{202F}'
    || c == '\U{205F}' || c == '\U{3000}'
  }

  predicate AllSpace(s: string)
  {
    forall i :: 0 <= i < |s| ==> IsSpace(s[i])
  }

  /** Leading white space removed. */
  function TrimLeft(s: string): string
  {
    if s != [] && IsSpace(s[0]) then TrimLeft(s[1..]) else s
  }

  /** What TrimLeft leaves is a suffix of `s`, the part cut off is all white
      space, and what is left does not start with white space. */
  lemma {:induction false} TrimLeftShape(s: string)
    ensures var r := TrimLeft(s);
      |r| <= |s| && r == s[|s| - |r|..] && AllSpace(s[..|s| - |r|]) && (r != [] ==> !IsSpace(r[0]))
  {
    if s != [] && IsSpace(s[0]) {
      TrimLeftShape(s[1..]);
      var r := TrimLeft(s);
      assert s[..|s| - |r|] == [s[0]] + s[1..][..|s| - 1 - |r|];
    }
  }

  /** Trailing white space removed. */
  function TrimRight(s: string): string
  {
    if s != [] && IsSpace(s[|s| - 1]) then TrimRight(s[..|s| - 1]) else s
  }

  /** What TrimRight leaves is a prefix of `s`, the part cut off is all white
      space, and what is left does not end with white space. */
  lemma {:induction false} TrimRightShape(s: string)
    ensures var r := TrimRight(s);
      |r| <= |s| && r == s[..|r|] && AllSpace(s[|r|..]) && (r != [] ==> !IsSpace(r[|r| - 1]))
  {
    if s != [] && IsSpace(s[|s| - 1]) {
      TrimRightShape(s[..|s| - 1]);
      var r := TrimRight(s);
      assert s[|r|..] == s[..|s| - 1][|r|..] + [s[|s| - 1]];
    }
  }

  /** strings.TrimSpace: `s` with leading and trailing white space removed. */
  function TrimSpace(s: string): string
  {
    TrimRight(TrimLeft(s))
  }

  /** TrimSpace cuts `s` into a white-space prefix s[..i], a middle s[i..j]
      that neither starts nor ends with white space, and a white-space suffix
      s[j..], and returns the middle. */
  lemma TrimSpaceShape(s: string) returns (i: nat, j: nat)
    ensures i <= j <= |s| && TrimSpace(s) == s[i..j]
    ensures AllSpace(s[..i]) && AllSpace(s[j..])
    ensures i < j ==> !IsSpace(s[i]) && !IsSpace(s[j - 1])
  {
    var l := TrimLeft(s);
    TrimLeftShape(s);
    TrimRightShape(l);
    var r := TrimRight(l);
    i := |s| - |l|;
    j := i + |r|;
    assert r == s[i..j];
    assert s[j..] == l[|r|..];
    if i < j {
      assert s[i] == l[0];
      assert s[j - 1] == r[|r| - 1];
    }
  }

  /** TrimSpace keeps exactly the middle of `s` between white-space margins:
      any cut of `s` into a white-space prefix, a middle that neither starts
      nor ends with white space, and a white-space suffix has TrimSpace(s) as
      its middle. */
  lemma TrimSpaceIsMiddle(s: string, i: nat, j: nat)
    requires i <= j <= |s|
    requires AllSpace(s[..i]) && AllSpace(s[j..])
    requires i < j ==> !IsSpace(s[i]) && !IsSpace(s[j - 1])
    ensures TrimSpace(s) == s[i..j]
  {
    if i < j {
      TrimLeftOf(s, i);
      assert s[i..][j - i..] == s[j..];
      TrimRightOf(s[i..], j - i);
      assert s[i..][..j - i] == s[i..j];
    } else {
      assert forall k :: 0 <= k < |s| ==> IsSpace(s[k]) by {
        forall k | 0 <= k < |s|
          ensures IsSpace(s[k])
        {
          if k < i {
            assert s[k] == s[..i][k];
          } else {
            assert s[k] == s[j..][k - j];
          }
        }
      }
      AllSpaceTrims(s);
    }
  }

  /** TrimLeft of a string that is white space followed by a middle. */
  lemma {:induction false} TrimLeftOf(t: string, m: nat)
    requires m < |t| && AllSpace(t[..m]) && !IsSpace(t[m])
    ensures TrimLeft(t) == t[m..]
    decreases m
  {
    if m > 0 {
      assert IsSpace(t[..m][0]);
      assert t[1..][..m - 1] == t[..m][1..];
      TrimLeftOf(t[1..], m - 1);
      assert t[1..][m - 1..] == t[m..];
    }
  }

  /** TrimRight of a string that is a middle followed by white space. */
  lemma TrimRightOf(t: string, m: nat)
    requires 0 < m <= |t| && AllSpace(t[m..]) && !IsSpace(t[m - 1])
    ensures TrimRight(t) == t[..m]
  {
    var r := TrimRight(t);
    TrimRightShape(t);
    assert |r| == m;
  }

  /** A string of white space trims to nothing. */
  lemma AllSpaceTrims(s: string)
    requires AllSpace(s)
    ensures TrimSpace(s) == []
  {
    var l := TrimLeft(s);
    TrimLeftShape(s);
    assert l == [];
  }

  /** strings.Split(s, sep) for a one-character separator: the pieces
      between separators, in order, empty pieces included. */
  function Split(s: string, sep: char): (parts: seq<string>)
    ensures |parts| >= 1
  {
    if s == [] then [[]]
    else
      var rest := Split(s[1..], sep);
      if s[0] == sep then [[]] + rest
      else [[s[0]] + rest[0]] + rest[1..]
  }

  /** No piece holds the separator, and joining the pieces back with it gives
      `s` again. */
  lemma {:induction false} SplitShape(s: string, sep: char)
    ensures forall i :: 0 <= i < |Split(s, sep)| ==> sep !in Split(s, sep)[i]
    ensures JoinWith(Split(s, sep), sep) == s
  {
    if s != [] {
      SplitShape(s[1..], sep);
    }
  }

  /** strings.Join: the pieces with `sep` between consecutive ones. */
  function JoinWith(parts: seq<string>, sep: char): string
    requires |parts| >= 1
  {
    if |parts| == 1 then parts[0] else parts[0] + [sep] + JoinWith(parts[1..], sep)
  }

  /** Splitting undoes joining pieces that hold no separator, so Split and
      JoinWith are inverse to each other. */
  lemma {:induction false} SplitJoin(parts: seq<string>, sep: char)
    requires |parts| >= 1
    requires forall i :: 0 <= i < |parts| ==> sep !in parts[i]
    ensures Split(JoinWith(parts, sep), sep) == parts
    decreases |parts|, |parts[0]|
  {
    var p := parts[0];
    if p != [] {
      var shorter := [p[1..]] + parts[1..];
      assert forall i :: 1 <= i < |shorter| ==> shorter[i] == parts[i];
      SplitJoin(shorter, sep);
      var s := JoinWith(parts, sep);
      assert s == [p[0]] + JoinWith(shorter, sep) by {
        if |parts| > 1 {
          assert shorter[1..] == parts[1..];
        }
      }
      assert s[1..] == JoinWith(shorter, sep);
      assert p[0] != sep by { assert p[0] in p; }
      assert [p[0]] + p[1..] == p;
      assert parts == [p] + shorter[1..];
    } else if |parts| > 1 {
      SplitJoin(parts[1..], sep);
      var s := JoinWith(parts, sep);
      assert s == [sep] + JoinWith(parts[1..], sep);
      assert s[1..] == JoinWith(parts[1..], sep);
      assert parts == [[]] + parts[1..];
    }
  }

  /** Every piece trimmed. */
  function TrimAll(parts: seq<string>): (trimmed: seq<string>)
    ensures |trimmed| == |parts|
    ensures forall i :: 0 <= i < |parts| ==> trimmed[i] == TrimSpace(parts[i])
  {
    if parts == [] then [] else [TrimSpace(parts[0])] + TrimAll(parts[1..])
  }

  /** The non-empty names among `pieces`, collected in order. */
  function NonEmptyNames(pieces: seq<string>): (names: set<string>)
  {
    if pieces == [] then {}
    else
      var last := pieces[|pieces| - 1];
      NonEmptyNames(pieces[..|pieces| - 1]) + (if last != [] then {last} else {})
  }

  /** The names collected are exactly the non-empty pieces. */
  lemma {:induction false} NonEmptyNamesMembers(pieces: seq<string>, n: string)
    ensures n in NonEmptyNames(pieces) <==> n != [] && n in pieces
    decreases |pieces|
  {
    if pieces != [] {
      var init := pieces[..|pieces| - 1];
      NonEmptyNamesMembers(init, n);
      assert pieces == init + [pieces[|pieces| - 1]];
    }
  }

  /** The exclude set the flag describes: the non-empty trimmed pieces of the
      flag split on commas. */
  function ExcludeSetOf(flag: string): set<string>
  {
    NonEmptyNames(TrimAll(Split(flag, ',')))
  }

  /** No excluded name is empty, holds a comma, or has white space at either
      end, and the empty flag describes no names. */
  lemma ExcludedNamesClean(flag: string)
    ensures [] !in ExcludeSetOf(flag)
    ensures forall n :: n in ExcludeSetOf(flag) ==> ',' !in n && TrimSpace(n) == n
    ensures flag == [] ==> ExcludeSetOf(flag) == {}
  {
    var parts := Split(flag, ',');
    SplitShape(flag, ',');
    CleanPieces(parts, ',');
    assert ExcludeSetOf(flag) == NonEmptyNames(TrimAll(parts));
    if flag == [] {
      EmptyFlagNoNames();
    }
  }

  /** The non-empty trimmed pieces of pieces free of `sep` are non-empty,
      free of `sep`, and already trimmed. */
  lemma CleanPieces(parts: seq<string>, sep: char)
    requires forall i :: 0 <= i < |parts| ==> sep !in parts[i]
    ensures [] !in NonEmptyNames(TrimAll(parts))
    ensures forall n :: n in NonEmptyNames(TrimAll(parts)) ==> sep !in n && TrimSpace(n) == n
  {
    var trimmed := TrimAll(parts);
    NonEmptyNamesMembers(trimmed, []);
    forall n | n in NonEmptyNames(trimmed)
      ensures sep !in n && TrimSpace(n) == n
    {
      NonEmptyNamesMembers(trimmed, n);
      var i :| 0 <= i < |trimmed| && trimmed[i] == n;
      TrimmedClean(parts[i], sep);
    }
  }

  /** Trimming adds no character and is idempotent. */
  lemma TrimmedClean(p: string, sep: char)
    requires sep !in p
    ensures sep !in TrimSpace(p)
    ensures TrimSpace(TrimSpace(p)) == TrimSpace(p)
  {
    TrimSpaceWithin(p);
    var a, b := TrimSpaceShape(p);
    var n := TrimSpace(p);
    TrimSpaceIsMiddle(n, 0, |n|);
  }

  /** Some piece of `parts` trims to `n`. */
  predicate SomePieceTrimsTo(parts: seq<string>, n: string)
  {
    exists k :: 0 <= k < |parts| && TrimSpace(parts[k]) == n
  }

  /** A name is in the exclude set exactly when it is non-empty and some
      comma-separated piece of the flag trims to it. */
  lemma ExcludeSetMembers(flag: string, n: string)
    ensures n in ExcludeSetOf(flag) <==> n != [] && SomePieceTrimsTo(Split(flag, ','), n)
  {
    var parts := Split(flag, ',');
    TrimmedMembers(parts, n);
    assert ExcludeSetOf(flag) == NonEmptyNames(TrimAll(parts));
  }

  /** The non-empty trimmed pieces are the names some piece trims to. */
  lemma TrimmedMembers(parts: seq<string>, n: string)
    ensures n in NonEmptyNames(TrimAll(parts)) <==> n != [] && SomePieceTrimsTo(parts, n)
  {
    var trimmed := TrimAll(parts);
    NonEmptyNamesMembers(trimmed, n);
    if n in trimmed {
      var k :| 0 <= k < |trimmed| && trimmed[k] == n;
      assert TrimSpace(parts[k]) == n;
    }
    if exists k :: 0 <= k < |parts| && TrimSpace(parts[k]) == n {
      var k :| 0 <= k < |parts| && TrimSpace(parts[k]) == n;
      assert trimmed[k] == n;
    }
  }

  /** The empty flag splits into one empty piece, which trims to nothing. */
  lemma EmptyFlagNoNames()
    ensures NonEmptyNames(TrimAll(Split([], ','))) == {}
  {
    var trimmed := TrimAll(Split([], ','));
    AllSpaceTrims([]);
    assert trimmed == [[]];
    assert trimmed[..0] == [];
  }

  /** Every character TrimSpace keeps comes from its argument. */
  lemma TrimSpaceWithin(s: string)
    ensures forall c :: c in TrimSpace(s) ==> c in s
  {
    var l := TrimLeft(s);
    var r := TrimRight(l);
    TrimLeftShape(s);
    TrimRightShape(l);
    forall c | c in r
      ensures c in s
    {
      var k :| 0 <= k < |r| && r[k] == c;
      assert r[k] == l[k] == s[|s| - |l| + k];
    }
  }

  /** The loop in run that fills excludeSet. The guard on the empty flag
      changes nothing: the empty flag splits into one empty piece, which the
      loop would drop anyway. */
  method BuildExcludeSet(flag: string) returns (excludeSet: set<string>)
    ensures excludeSet == ExcludeSetOf(flag)
  {
    excludeSet := {};
    if flag != [] {
      excludeSet := CollectTrimmed(Split(flag, ','));
    }
  }

  /** The loop over the pieces of the flag: each piece is trimmed and kept
      when it is non-empty. */
  method CollectTrimmed(parts: seq<string>) returns (names: set<string>)
    ensures names == NonEmptyNames(TrimAll(parts))
  {
    names := {};
    var i := 0;
    while i < |parts|
      invariant i <= |parts|
      invariant names == NonEmptyNames(TrimAll(parts)[..i])
    {
      var trimmed := TrimSpace(parts[i]);
      assert TrimAll(parts)[..i + 1][..i] == TrimAll(parts)[..i];
      if trimmed != [] {
        names := names + {trimmed};
      }
      i := i + 1;
    }
    assert TrimAll(parts)[..i] == TrimAll(parts);
  }
}

=== FILE: exclusion.dfy ===
/** The exclude set prunes whole subtrees, at any depth, from both the
    totals and the records. */
module Exclusion {
  import opened Entries
  import opened FsTree
  import opened Walk

  /** The tree with every entry whose name is excluded removed, at every
      level. */
  function Prune(n: Node, exclude: set<string>): Node
    decreases n, 1
  {
    match n
    case File(_, _, _) => n
    case Dir(name, children, readable) => Dir(name, PruneAll(children, exclude), readable)
  }

  /** A listing with its excluded entries dropped and the rest pruned. */
  function PruneAll(entries: seq<Node>, exclude: set<string>): seq<Node>
    decreases entries
  {
    if entries == [] then []
    else
      (if entries[0].name in exclude then [] else [Prune(entries[0], exclude)])
        + PruneAll(entries[1..], exclude)
  }

  /** No excluded name occurs anywhere in the subtree. */
  predicate FreeOf(n: Node, exclude: set<string>)
  {
    n.name !in exclude && (n.Dir? ==> forall i :: 0 <= i < |n.children| ==> FreeOf(n.children[i], exclude))
  }

  /** Pruning leaves no excluded name anywhere in the listing. */
  lemma {:induction false} PruneAllIsFree(entries: seq<Node>, exclude: set<string>)
    ensures forall i :: 0 <= i < |PruneAll(entries, exclude)| ==> FreeOf(PruneAll(entries, exclude)[i], exclude)
    decreases entries
  {
    if entries != [] {
      var head := if entries[0].name in exclude then [] else [Prune(entries[0], exclude)];
      PruneAllIsFree(entries[1..], exclude);
      if entries[0].name !in exclude {
        PruneIsFree(entries[0], exclude);
      }
      assert PruneAll(entries, exclude) == head + PruneAll(entries[1..], exclude);
    }
  }

  /** Pruning an entry whose own name is not excluded leaves no excluded name
      anywhere in its subtree. */
  lemma {:induction false} PruneIsFree(n: Node, exclude: set<string>)
    requires n.name !in exclude
    ensures FreeOf(Prune(n, exclude), exclude)
    decreases n, 1
  {
    if n.Dir? {
      PruneAllIsFree(n.children, exclude);
    }
  }

  /** Excluded subtrees are invisible, with no partial effects: walking a
      listing gives exactly what walking it with every excluded subtree
      removed, at every depth, gives. */
  lemma {:induction false} ExcludedSubtreesInvisible(path: string, entries: seq<Node>, threshold: nat, exclude: set<string>)
    ensures WalkEntries(path, entries, threshold, exclude)
         == WalkEntries(path, PruneAll(entries, exclude), threshold, exclude)
    decreases entries
  {
    if entries != [] {
      ExcludedSubtreesInvisible(path, entries[1..], threshold, exclude);
      var rest := PruneAll(entries[1..], exclude);
      if entries[0].name in exclude {
        assert PruneAll(entries, exclude) == rest;
      } else {
        var p := Prune(entries[0], exclude);
        PrunedVisit(path, entries[0], threshold, exclude);
        assert PruneAll(entries, exclude) == [p] + rest;
        assert ([p] + rest)[0] == p && ([p] + rest)[1..] == rest;
      }
    }
  }

  /** The same for one entry whose name is not excluded. */
  lemma {:induction false} PrunedVisit(path: string, entry: Node, threshold: nat, exclude: set<string>)
    requires entry.name !in exclude
    ensures Visit(path, entry, threshold, exclude) == Visit(path, Prune(entry, exclude), threshold, exclude)
    decreases entry, 1
  {
    if entry.Dir? {
      ExcludedSubtreesInvisible(Join(path, entry.name), entry.children, threshold, exclude);
    }
  }

  /** Nothing at or under the path of an excluded entry is recorded, and the
      excluded entry adds nothing to its parent's total. */
  lemma {:induction false} ExcludedPathsAbsent(path: string, entries: seq<Node>, threshold: nat, exclude: set<string>, name: Name)
    requires name in exclude
    ensures forall e :: e in WalkEntries(path, entries, threshold, exclude).found ==> !AtOrUnder(Join(path, name), e.path)
    ensures forall i :: 0 <= i < |entries| && entries[i].name == name ==> Visit(path, entries[i], threshold, exclude) == Nothing
    decreases entries
  {
    if entries != [] {
      ExcludedPathsAbsent(path, entries[1..], threshold, exclude, name);
      VisitBounds(path, entries[0], threshold, exclude);
      forall e | e in Visit(path, entries[0], threshold, exclude).found
        ensures !AtOrUnder(Join(path, name), e.path)
      {
        SiblingsDisjoint(path, entries[0].name, name, e.path);
      }
      assert forall i :: 1 <= i < |entries| ==> entries[i] == entries[1..][i - 1];
    }
  }
}

=== FILE: fstree.dfy ===
/** The directory tree the scan walks, as os.ReadDir and entry.Info present it. */
module FsTree {
  import opened Entries

  /** A directory entry. Anything os.ReadDir does not report as a directory
      (a regular file, a symbolic link, a device) is a File; `statOk` is false
      when entry.Info fails for it. A Dir's `readable` is false when
      os.ReadDir fails on it, and its children are then never seen. */
  datatype Node =
    | File(name: Name, size: nat, statOk: bool)
    | Dir(name: Name, children: seq<Node>, readable: bool)

  /** No directory lists two entries under the same name. */
  predicate DistinctNames(n: Node)
  {
    n.Dir? ==>
      && UniqueNames(n.children)
      && forall i :: 0 <= i < |n.children| ==> DistinctNames(n.children[i])
  }

  /** The entries of one listing carry pairwise different names. */
  predicate UniqueNames(entries: seq<Node>)
  {
    forall i, j :: 0 <= i < j < |entries| ==> entries[i].name != entries[j].name
  }
}

=== FILE: order.dfy ===
/** The order the results are listed in: the less function handed to
    sort.Slice in run. Directories come first, then larger sizes, then paths in
    ascending string order. */
module Order {
  import opened Entries

  /** Go's `<` on strings: byte-wise lexicographic order. Dafny characters are
      Unicode scalar values, and UTF-8 byte order agrees with scalar-value
      order, so comparing characters compares the encoded bytes. */
  predicate PathLess(a: string, b: string)
    decreases |a|
  {
    b != [] && (a == [] || a[0] < b[0] || (a[0] == b[0] && PathLess(a[1..], b[1..])))
  }

  /** The comparator: results[i] sorts before results[j]. */
  predicate Before(a: FileInfo, b: FileInfo)
  {
    if a.isDir != b.isDir then a.isDir
    else if a.size != b.size then a.size > b.size
    else PathLess(a.path, b.path)
  }

  lemma {:induction false} PathLessIrreflexive(a: string)
    ensures !PathLess(a, a)
    decreases |a|
  {
    if a != [] {
      PathLessIrreflexive(a[1..]);
    }
  }

  lemma {:induction false} PathLessTransitive(a: string, b: string, c: string)
    requires PathLess(a, b) && PathLess(b, c)
    ensures PathLess(a, c)
    decreases |a|
  {
    if a != [] && a[0] == b[0] && b[0] == c[0] {
      PathLessTransitive(a[1..], b[1..], c[1..]);
    }
  }

  /** Two different strings are ordered one way or the other, never both. */
  lemma {:induction false} PathLessTrichotomous(a: string, b: string)
    ensures a == b || PathLess(a, b) || PathLess(b, a)
    ensures !(PathLess(a, b) && PathLess(b, a))
    decreases |a|
  {
    if a != [] && b != [] && a[0] == b[0] {
      PathLessTrichotomous(a[1..], b[1..]);
      if a[1..] == b[1..] {
        assert a == [a[0]] + a[1..] && b == [b[0]] + b[1..];
      }
    }
  }

  /** The comparator is a strict total order on records: irreflexive,
      transitive, and for two different records exactly one direction
      holds. */
  lemma BeforeIrreflexive(a: FileInfo)
    ensures !Before(a, a)
  {
    PathLessIrreflexive(a.path);
  }

  lemma BeforeTransitive(a: FileInfo, b: FileInfo, c: FileInfo)
    requires Before(a, b) && Before(b, c)
    ensures Before(a, c)
  {
    if a.isDir == b.isDir == c.isDir && a.size == b.size == c.size {
      PathLessTransitive(a.path, b.path, c.path);
    }
  }

  lemma BeforeExactlyOne(a: FileInfo, b: FileInfo)
    requires a != b
    ensures Before(a, b) != Before(b, a)
  {
    PathLessTrichotomous(a.path, b.path);
  }

  /** `s` is in the comparator's order: no element sorts before an earlier
      one. */
  predicate Sorted(s: seq<FileInfo>)
  {
    forall i, j :: 0 <= i < j < |s| ==> !Before(s[j], s[i])
  }

  /** What a sorted listing looks like: every directory precedes every file;
      within a kind sizes do not increase; records of one kind and size are
      in ascending path order. */
  lemma SortedShape(s: seq<FileInfo>, i: nat, j: nat)
    requires Sorted(s) && i < j < |s|
    ensures s[j].isDir ==> s[i].isDir
    ensures s[i].isDir == s[j].isDir ==> s[i].size >= s[j].size
    ensures s[i].isDir == s[j].isDir && s[i].size == s[j].size ==> s[i].path == s[j].path || PathLess(s[i].path, s[j].path)
  {
    PathLessTrichotomous(s[i].path, s[j].path);
  }

  /** Inserting into a sorted listing, after every element that sorts before
      the new one. */
  function Insert(x: FileInfo, s: seq<FileInfo>): (r: seq<FileInfo>)
    requires Sorted(s)
    ensures Sorted(r)
    ensures multiset(r) == multiset(s) + multiset{x}
  {
    if s == [] then [x]
    else if Before(s[0], x) then
      var tail := Insert(x, s[1..]);
      assert s == [s[0]] + s[1..];
      InsertHead(s[0], x, s[1..], tail);
      [s[0]] + tail
    else
      ConsSorted(x, s);
      [x] + s
  }

  /** `x` may go in front of a sorted listing whose head does not sort
      before it. */
  lemma ConsSorted(x: FileInfo, s: seq<FileInfo>)
    requires Sorted(s) && s != [] && !Before(s[0], x)
    ensures Sorted([x] + s)
  {
    forall j | 0 < j < |s|
      ensures !Before(s[j], x)
    {
      if Before(s[j], x) {
        if s[0] == s[j] {
        } else {
          BeforeExactlyOne(s[0], s[j]);
          BeforeTransitive(s[0], s[j], x);
        }
      }
    }
  }

  /** The head kept in front of the insertion into the tail. */
  lemma InsertHead(h: FileInfo, x: FileInfo, s: seq<FileInfo>, tail: seq<FileInfo>)
    requires Sorted([h] + s) && Before(h, x)
    requires Sorted(tail) && multiset(tail) == multiset(s) + multiset{x}
    ensures Sorted([h] + tail)
  {
    forall j | 0 <= j < |tail|
      ensures !Before(tail[j], h)
    {
      assert tail[j] in multiset(tail);
      if tail[j] == x {
        BeforeIrreflexive(h);
        BeforeExactlyOne(h, x);
      } else {
        assert tail[j] in multiset(s);
        var k :| 0 <= k < |s| && s[k] == tail[j];
        assert ([h] + s)[k + 1] == s[k] && ([h] + s)[0] == h;
      }
    }
  }

  /** The listing after sort.Slice: sorted, and a permutation of its input. */
  function SortResults(s: seq<FileInfo>): (r: seq<FileInfo>)
    ensures Sorted(r)
    ensures multiset(r) == multiset(s)
  {
    if s == [] then []
    else
      assert s == [s[0]] + s[1..];
      Insert(s[0], SortResults(s[1..]))
  }

  /** Two records neither of which sorts before the other are equal. */
  lemma Tied(x: FileInfo, y: FileInfo)
    requires !Before(x, y) && !Before(y, x)
    ensures x == y
  {
    if x != y {
      BeforeExactlyOne(x, y);
    }
  }

  /** Two sorted permutations of one multiset start with the same record. */
  lemma SameHead(a: seq<FileInfo>, b: seq<FileInfo>)
    requires Sorted(a) && Sorted(b) && multiset(a) == multiset(b) && a != []
    ensures b != [] && a[0] == b[0]
  {
    assert a[0] in multiset(b);
    assert b[0] in multiset(a);
    var i :| 0 <= i < |a| && a[i] == b[0];
    var j :| 0 <= j < |b| && b[j] == a[0];
    if i == 0 {
      BeforeIrreflexive(a[0]);
    }
    if j == 0 {
      BeforeIrreflexive(b[0]);
    }
    assert !Before(b[0], a[0]) && !Before(a[0], b[0]);
    Tied(a[0], b[0]);
  }

  /** Sorting has one answer: two sorted permutations of the same records are
      the same listing. */
  lemma {:induction false} SortedUnique(a: seq<FileInfo>, b: seq<FileInfo>)
    requires Sorted(a) && Sorted(b) && multiset(a) == multiset(b)
    ensures a == b
    decreases |a|
  {
    if a != [] {
      SameHead(a, b);
      assert a == [a[0]] + a[1..] && b == [b[0]] + b[1..];
      forall e
        ensures multiset(a[1..])[e] == multiset(b[1..])[e]
      {
        assert multiset(a)[e] == multiset{a[0]}[e] + multiset(a[1..])[e];
        assert multiset(b)[e] == multiset{b[0]}[e] + multiset(b[1..])[e];
      }
      SortedUnique(a[1..], b[1..]);
    } else {
      assert |multiset(b)| == 0;
    }
  }

  /** Since the order is total, the listing is fixed by the multiset of
      results alone: whatever order the goroutines appended in, the sorted
      output is the same. */
  lemma ListingIndependentOfArrival(a: seq<FileInfo>, b: seq<FileInfo>)
    requires multiset(a) == multiset(b)
    ensures SortResults(a) == SortResults(b)
  {
    SortedUnique(SortResults(a), SortResults(b));
  }
}

=== FILE: reach.dfy ===
/** An order-free reference for what the walk computes. It lists every node
    the walk reaches, flat, and says what a walk over those nodes reports:
    - a directory's total is the byte count of every stat-able file reached
      beneath it, in the way du counts it;
    - the records are exactly the reached nodes whose size reaches the
      threshold.
    Walk.WalkEntries is proved equal to this reference (WalkMatchesReference). */
module Reach {
  import opened Entries
  import opened FsTree
  import opened Walk

  /** A node the walk reaches, with the path it reaches it under. */
  datatype Sighting = Sighting(path: string, node: Node)

  /** Every node reached below the directory `path` whose listing is
      `entries`: excluded names are not entered, and the children of an
      unreadable directory are never seen. */
  function ReachedEntries(path: string, entries: seq<Node>, exclude: set<string>): seq<Sighting>
    decreases entries
  {
    if entries == [] then []
    else ReachedFrom(path, entries[0], exclude) + ReachedEntries(path, entries[1..], exclude)
  }

  /** The entry itself (unless its name is excluded) and everything reached
      beneath it. */
  function ReachedFrom(path: string, entry: Node, exclude: set<string>): seq<Sighting>
    decreases entry, 1
  {
    if entry.name in exclude then []
    else
      var full := Join(path, entry.name);
      [Sighting(full, entry)]
        + (if entry.Dir? && entry.readable then ReachedEntries(full, entry.children, exclude) else [])
  }

  /** The bytes of the stat-able files among `rs`. */
  function Bytes(rs: seq<Sighting>): nat
  {
    if rs == [] then 0
    else (if rs[0].node.File? && rs[0].node.statOk then rs[0].node.size else 0) + Bytes(rs[1..])
  }

  /** The size a sighting is reported with: a file's own size, or the bytes
      of every stat-able file reached beneath a directory. */
  function Usage(s: Sighting, exclude: set<string>): nat
  {
    match s.node
    case File(_, size, _) => size
    case Dir(_, children, readable) =>
      if readable then Bytes(ReachedEntries(s.path, children, exclude)) else 0
  }

  /** A sighting with a size: a directory, or a file whose stat succeeded. */
  predicate Sized(s: Sighting)
  {
    s.node.Dir? || s.node.statOk
  }

  /** The record a sized sighting is reported as. */
  function RecordOf(s: Sighting, exclude: set<string>): FileInfo
  {
    FileInfo(s.path, Usage(s, exclude), s.node.Dir?)
  }

  /** The sized sightings among `rs` whose size reaches the threshold, as
      records. */
  function Report(rs: seq<Sighting>, threshold: nat, exclude: set<string>): seq<FileInfo>
  {
    if rs == [] then []
    else
      (if Sized(rs[0]) && Usage(rs[0], exclude) >= threshold then [RecordOf(rs[0], exclude)] else [])
        + Report(rs[1..], threshold, exclude)
  }

  /** The result the walk should produce for the sightings `rs`. */
  function Expected(rs: seq<Sighting>, threshold: nat, exclude: set<string>): WalkResult
  {
    WalkResult(Bytes(rs), multiset(Report(rs, threshold, exclude)))
  }

  lemma {:induction false} BytesAppend(a: seq<Sighting>, b: seq<Sighting>)
    ensures Bytes(a + b) == Bytes(a) + Bytes(b)
  {
    if a != [] {
      assert (a + b)[1..] == a[1..] + b;
      BytesAppend(a[1..], b);
    } else {
      assert a + b == b;
    }
  }

  lemma {:induction false} ReportAppend(a: seq<Sighting>, b: seq<Sighting>, threshold: nat, exclude: set<string>)
    ensures Report(a + b, threshold, exclude) == Report(a, threshold, exclude) + Report(b, threshold, exclude)
  {
    if a != [] {
      assert (a + b)[0] == a[0];
      assert (a + b)[1..] == a[1..] + b;
      ReportAppend(a[1..], b, threshold, exclude);
    } else {
      assert a + b == b;
    }
  }

  /** The reference is additive over concatenated sightings. */
  lemma ExpectedAppend(a: seq<Sighting>, b: seq<Sighting>, threshold: nat, exclude: set<string>)
    ensures Expected(a + b, threshold, exclude) == Expected(a, threshold, exclude).Plus(Expected(b, threshold, exclude))
  {
    BytesAppend(a, b);
    ReportAppend(a, b, threshold, exclude);
  }

  /** The walk over a listing produces exactly the reference result: its total
      is the bytes of every stat-able file reached, and its records are the
      reached sized nodes whose size reaches the threshold, each once per
      sighting. */
  lemma {:induction false} WalkMatchesReference(path: string, entries: seq<Node>, threshold: nat, exclude: set<string>)
    ensures WalkEntries(path, entries, threshold, exclude)
         == Expected(ReachedEntries(path, entries, exclude), threshold, exclude)
    decreases entries
  {
    if entries != [] {
      VisitMatchesReference(path, entries[0], threshold, exclude);
      WalkMatchesReference(path, entries[1..], threshold, exclude);
      ExpectedAppend(ReachedFrom(path, entries[0], exclude), ReachedEntries(path, entries[1..], exclude), threshold, exclude);
    }
  }

  /** The same for one entry of a listing. */
  lemma {:induction false} VisitMatchesReference(path: string, entry: Node, threshold: nat, exclude: set<string>)
    ensures Visit(path, entry, threshold, exclude) == Expected(ReachedFrom(path, entry, exclude), threshold, exclude)
    decreases entry, 1
  {
    if entry.name in exclude {
      assert ReachedFrom(path, entry, exclude) == [];
    } else if entry.Dir? {
      var full := Join(path, entry.name);
      var self := Sighting(full, entry);
      var below := if entry.readable then ReachedEntries(full, entry.children, exclude) else [];
      assert ReachedFrom(path, entry, exclude) == [self] + below;
      if entry.readable {
        WalkMatchesReference(full, entry.children, threshold, exclude);
      }
      assert WalkDir(full, entry, threshold, exclude) == Expected(below, threshold, exclude);
      DirVisit(path, entry, threshold, exclude, below);
    } else {
      var self := Sighting(Join(path, entry.name), entry);
      assert ReachedFrom(path, entry, exclude) == [self];
      SingleExpected(self, threshold, exclude);
    }
  }

  /** The step of VisitMatchesReference for a directory, once the walk below
      it is known to match the reference. */
  lemma DirVisit(path: string, entry: Node, threshold: nat, exclude: set<string>, below: seq<Sighting>)
    requires entry.Dir? && entry.name !in exclude
    requires below == if entry.readable then ReachedEntries(Join(path, entry.name), entry.children, exclude) else []
    requires WalkDir(Join(path, entry.name), entry, threshold, exclude) == Expected(below, threshold, exclude)
    ensures Visit(path, entry, threshold, exclude) == Expected([Sighting(Join(path, entry.name), entry)] + below, threshold, exclude)
  {
    var self := Sighting(Join(path, entry.name), entry);
    ExpectedAppend([self], below, threshold, exclude);
    SingleExpected(self, threshold, exclude);
    assert Usage(self, exclude) == Bytes(below);
  }

  /** The reference result for a single sighting. */
  lemma SingleExpected(s: Sighting, threshold: nat, exclude: set<string>)
    ensures Expected([s], threshold, exclude).total == (if s.node.File? && s.node.statOk then s.node.size else 0)
    ensures Expected([s], threshold, exclude).found
         == (if Sized(s) && Usage(s, exclude) >= threshold then multiset{RecordOf(s, exclude)} else multiset{})
  {
    assert [s][1..] == [];
    assert Bytes([s]) == (if s.node.File? && s.node.statOk then s.node.size else 0) + Bytes([]);
    assert Report([s], threshold, exclude)
        == (if Sized(s) && Usage(s, exclude) >= threshold then [RecordOf(s, exclude)] else []) + Report([], threshold, exclude);
  }
}

=== FILE: recording.dfy ===
/** Which nodes end up in the result collection, and how often. */
module Recording {
  import opened Entries
  import opened FsTree
  import opened Walk
  import opened Reach

  /** A record is reported for a list of sightings exactly when it is the
      record of one of its sized sightings and reaches the threshold. */
  lemma {:induction false} InReport(rs: seq<Sighting>, threshold: nat, exclude: set<string>, e: FileInfo)
    ensures e in Report(rs, threshold, exclude)
        <==> e.size >= threshold && exists i :: 0 <= i < |rs| && Sized(rs[i]) && e == RecordOf(rs[i], exclude)
  {
    if rs != [] {
      InReport(rs[1..], threshold, exclude, e);
      if e.size >= threshold && (exists i :: 0 <= i < |rs| && Sized(rs[i]) && e == RecordOf(rs[i], exclude)) {
        var i :| 0 <= i < |rs| && Sized(rs[i]) && e == RecordOf(rs[i], exclude);
        if i > 0 {
          assert rs[1..][i - 1] == rs[i];
        }
      }
    }
  }

  /** The recording rule: walking a readable directory records, as a file or
      a directory, exactly those reached files with a successful stat and
      those reached directories (the walked one excluded) whose size reaches
      the threshold, with a directory's size being everything reached
      beneath it. */
  lemma RecordingRule(path: string, dir: Node, threshold: nat, exclude: set<string>, e: FileInfo)
    requires dir.Dir? && dir.readable
    ensures var rs := ReachedEntries(path, dir.children, exclude);
      (e in WalkDir(path, dir, threshold, exclude).found
       <==> e.size >= threshold && exists i :: 0 <= i < |rs| && Sized(rs[i]) && e == RecordOf(rs[i], exclude))
  {
    WalkMatchesReference(path, dir.children, threshold, exclude);
    InReport(ReachedEntries(path, dir.children, exclude), threshold, exclude, e);
  }

  /** No two sightings share a path. */
  predicate DistinctPaths(rs: seq<Sighting>)
  {
    forall i, j :: 0 <= i < j < |rs| ==> rs[i].path != rs[j].path
  }

  /** Everything reached through one entry lies at or under that entry's
      path, and everything reached below a directory lies beneath it, under
      one of its entries. */
  lemma {:induction false} ReachedFromUnder(path: string, entry: Node, exclude: set<string>)
    ensures forall s :: s in ReachedFrom(path, entry, exclude) ==> AtOrUnder(Join(path, entry.name), s.path)
    decreases entry, 1
  {
    if entry.name !in exclude && entry.Dir? && entry.readable {
      var full := Join(path, entry.name);
      var below := ReachedEntries(full, entry.children, exclude);
      assert ReachedFrom(path, entry, exclude) == [Sighting(full, entry)] + below;
      forall s | s in below
        ensures Beneath(full, s.path)
      {
        var i :| 0 <= i < |below| && below[i] == s;
        var k := ReachedOrigin(full, entry.children, exclude, i);
        JoinIsBeneath(full, entry.children[k].name, s.path);
      }
    }
  }

  /** The entry of a listing through which a sighting below it was reached. */
  lemma {:induction false} ReachedOrigin(path: string, entries: seq<Node>, exclude: set<string>, i: nat) returns (k: nat)
    requires i < |ReachedEntries(path, entries, exclude)|
    ensures k < |entries|
    ensures entries[k].name !in exclude
    ensures AtOrUnder(Join(path, entries[k].name), ReachedEntries(path, entries, exclude)[i].path)
    decreases entries
  {
    var first := ReachedFrom(path, entries[0], exclude);
    var rest := ReachedEntries(path, entries[1..], exclude);
    assert ReachedEntries(path, entries, exclude) == first + rest;
    if i < |first| {
      ReachedFromUnder(path, entries[0], exclude);
      assert first[i] in first;
      k := 0;
    } else {
      var k' := ReachedOrigin(path, entries[1..], exclude, i - |first|);
      k := k' + 1;
    }
  }

  lemma DistinctAppend(a: seq<Sighting>, b: seq<Sighting>)
    requires DistinctPaths(a) && DistinctPaths(b)
    requires forall i, j :: 0 <= i < |a| && 0 <= j < |b| ==> a[i].path != b[j].path
    ensures DistinctPaths(a + b)
  {
  }

  /** In a tree whose directories never list a name twice, every
      node is reached under its own path. */
  lemma {:induction false} ReachedDistinct(path: string, entries: seq<Node>, exclude: set<string>)
    requires UniqueNames(entries)
    requires forall i :: 0 <= i < |entries| ==> DistinctNames(entries[i])
    ensures DistinctPaths(ReachedEntries(path, entries, exclude))
    decreases entries
  {
    if entries != [] {
      var first := ReachedFrom(path, entries[0], exclude);
      var rest := ReachedEntries(path, entries[1..], exclude);
      ReachedFromDistinct(path, entries[0], exclude);
      ReachedDistinct(path, entries[1..], exclude);
      ReachedFromUnder(path, entries[0], exclude);
      forall i, j | 0 <= i < |first| && 0 <= j < |rest|
        ensures first[i].path != rest[j].path
      {
        assert first[i] in first;
        var k := ReachedOrigin(path, entries[1..], exclude, j);
        assert entries[1..][k] == entries[k + 1];
        SiblingsDisjoint(path, entries[k + 1].name, entries[0].name, rest[j].path);
      }
      DistinctAppend(first, rest);
    }
  }

  /** The same for the nodes reached through one entry. */
  lemma {:induction false} ReachedFromDistinct(path: string, entry: Node, exclude: set<string>)
    requires DistinctNames(entry)
    ensures DistinctPaths(ReachedFrom(path, entry, exclude))
    decreases entry, 1
  {
    if entry.name !in exclude && entry.Dir? && entry.readable {
      var full := Join(path, entry.name);
      var below := ReachedEntries(full, entry.children, exclude);
      ReachedDistinct(full, entry.children, exclude);
      forall j | 0 <= j < |below|
        ensures below[j].path != full
      {
        var k := ReachedOrigin(full, entry.children, exclude, j);
        JoinIsBeneath(full, entry.children[k].name, below[j].path);
      }
      DistinctAppend([Sighting(full, entry)], below);
    }
  }

  /** Sightings under distinct paths are reported at most once each, and no
      two of their records share a path. */
  lemma {:induction false} ReportOnce(rs: seq<Sighting>, threshold: nat, exclude: set<string>)
    requires DistinctPaths(rs)
    ensures forall e :: multiset(Report(rs, threshold, exclude))[e] <= 1
    ensures forall e1, e2 :: e1 in Report(rs, threshold, exclude) && e2 in Report(rs, threshold, exclude) && e1.path == e2.path ==> e1 == e2
  {
    if rs != [] {
      var tail := rs[1..];
      ReportOnce(tail, threshold, exclude);
      forall e | e in Report(tail, threshold, exclude)
        ensures e.path != rs[0].path
      {
        InReport(tail, threshold, exclude, e);
        var i :| 0 <= i < |tail| && Sized(tail[i]) && e == RecordOf(tail[i], exclude);
        assert tail[i] == rs[i + 1];
      }
    }
  }

  /** In a tree whose directories never list a name twice, the
      walk records each file and directory at most once, and no two records
      share a path. */
  lemma RecordedOnce(path: string, dir: Node, threshold: nat, exclude: set<string>)
    requires dir.Dir? && DistinctNames(dir)
    ensures forall e :: WalkDir(path, dir, threshold, exclude).found[e] <= 1
    ensures var found := WalkDir(path, dir, threshold, exclude).found;
      forall e1, e2 :: e1 in found && e2 in found && e1.path == e2.path ==> e1 == e2
  {
    if dir.readable {
      var rs := ReachedEntries(path, dir.children, exclude);
      WalkMatchesReference(path, dir.children, threshold, exclude);
      ReachedDistinct(path, dir.children, exclude);
      ReportOnce(rs, threshold, exclude);
    }
  }
}

=== FILE: scan.dfy ===
/** The part of run that follows flag parsing: the top-level exclusion check,
    the directory check, the scan, the record for the scanned directory itself
    and the sort of everything recorded. */
module TopLevel {
  import opened Entries
  import opened FsTree
  import opened Walk
  import opened Reach
  import opened WalkProps
  import opened WalkLoop
  import opened Order
  import opened ExcludeSet

  /** How run ends when its arguments parse: the scanned directory's base name
      is excluded and nothing is scanned; the path is not a directory; or the
      scan completes with a total and the records to be listed. */
  datatype Outcome =
    | TopLevelExcluded
    | NotADirectory
    | Listing(total: nat, found: multiset<FileInfo>)

  /** run on the (already cleaned) path `scanPath`, the node `root` found
      there, the parsed threshold and the --exclude flag. */
  function Scan(scanPath: string, root: Node, threshold: nat, flag: string): Outcome
  {
    var exclude := ExcludeSetOf(flag);
    if Base(scanPath) in exclude then TopLevelExcluded
    else if !root.Dir? then NotADirectory
    else
      var w := WalkDir(scanPath, root, threshold, exclude);
      Listing(w.total, if w.total >= threshold then AddResult(w.found, scanPath, w.total, true) else w.found)
  }

  /** The scan stops before anything else exactly when some comma-separated
      piece of the flag trims to the base name of the path. */
  lemma TopLevelExclusion(scanPath: string, root: Node, threshold: nat, flag: string)
    ensures Scan(scanPath, root, threshold, flag).TopLevelExcluded?
        <==> SomePieceTrimsTo(Split(flag, ','), Base(scanPath))
  {
    BaseShape(scanPath);
    ExcludeSetMembers(flag, Base(scanPath));
  }

  /** Past the exclusion check, run lists exactly when the path is a
      directory and refuses it otherwise. */
  lemma NotExcludedScans(scanPath: string, root: Node, threshold: nat, flag: string)
    requires !SomePieceTrimsTo(Split(flag, ','), Base(scanPath))
    ensures Scan(scanPath, root, threshold, flag).Listing? <==> root.Dir?
    ensures Scan(scanPath, root, threshold, flag).NotADirectory? <==> !root.Dir?
  {
    TopLevelExclusion(scanPath, root, threshold, flag);
  }

  /** The total run reports for a directory is its disk usage: the bytes of
      every stat-able file reached under it, 0 when it cannot be read. */
  lemma ScanTotalIsDiskUsage(scanPath: string, root: Node, threshold: nat, flag: string)
    requires Scan(scanPath, root, threshold, flag).Listing?
    ensures Scan(scanPath, root, threshold, flag).total
         == if root.readable then Bytes(ReachedEntries(scanPath, root.children, ExcludeSetOf(flag))) else 0
  {
    DirTotalIsDiskUsage(scanPath, root, threshold, ExcludeSetOf(flag));
  }

  /** The scanned directory is listed once, with the scan's total, exactly
      when that total reaches the threshold; every other record lies beneath
      it, reaches the threshold and is no larger than the total. */
  lemma RootRecordedIffLargeEnough(scanPath: string, root: Node, threshold: nat, flag: string)
    requires Scan(scanPath, root, threshold, flag).Listing?
    ensures var o := Scan(scanPath, root, threshold, flag);
      o.found[FileInfo(scanPath, o.total, true)] == (if o.total >= threshold then 1 else 0)
    ensures var o := Scan(scanPath, root, threshold, flag);
      forall e :: e in o.found && e != FileInfo(scanPath, o.total, true) ==>
        Beneath(scanPath, e.path) && threshold <= e.size <= o.total
  {
    var exclude := ExcludeSetOf(flag);
    var w := WalkDir(scanPath, root, threshold, exclude);
    WalkDirBounds(scanPath, root, threshold, exclude);
    RootNeverRecorded(scanPath, root, threshold, exclude);
    assert w.found[FileInfo(scanPath, w.total, true)] == 0;
  }

  /** run itself: the exclude set is built, the top-level name checked, the
      tree walked, the directory's own record added, and the records, which
      reach the result slice in an order the scheduler picks, sorted. */
  method Run(scanPath: string, root: Node, threshold: nat, flag: string)
    returns (outcome: Outcome, listing: seq<FileInfo>)
    ensures outcome == Scan(scanPath, root, threshold, flag)
    ensures outcome.Listing? ==> Sorted(listing) && multiset(listing) == outcome.found
    ensures !outcome.Listing? ==> listing == []
  {
    var excludeSet := BuildExcludeSet(flag);
    if Base(scanPath) in excludeSet {
      return TopLevelExcluded, [];
    }
    if !root.Dir? {
      return NotADirectory, [];
    }
    var totalSize, found := WalkDirRecursive(scanPath, root, threshold, excludeSet);
    if totalSize >= threshold {
      found := AddResult(found, scanPath, totalSize, true);
    }
    outcome := Listing(totalSize, found);
    var arrived := Arrive(found);
    listing := SortResults(arrived);
  }

  /** The records in some order of arrival: any sequence holding each record
      as often as the collection does. */
  method Arrive(found: multiset<FileInfo>) returns (arrived: seq<FileInfo>)
    ensures multiset(arrived) == found
  {
    arrived := [];
    var pending := found;
    while pending != multiset{}
      invariant multiset(arrived) + pending == found
      decreases |pending|
    {
      var x :| x in pending;
      arrived := arrived + [x];
      pending := pending - multiset{x};
    }
  }

  /** Whatever order the records arrive in, run lists the same sequence: the
      only sorted arrangement of the records. */
  lemma ListingDetermined(listing: seq<FileInfo>, arrived: seq<FileInfo>)
    requires Sorted(listing) && multiset(listing) == multiset(arrived)
    ensures listing == SortResults(arrived)
  {
    SortedUnique(listing, SortResults(arrived));
  }
}

=== FILE: scenarios.dfy ===
/** The cases the repository's tests exercise, stated about the model. The
    walks are rooted at any path T, standing for the test's temporary
    directory, so Join(T, x) is the test's filepath.Join(tmpDir, x); "T" is
    only the name of the root node. */
module Scenarios {
  import opened Entries
  import opened FsTree
  import opened Walk
  import opened Order
  import opened Units
  import opened ExcludeSet
  import opened TopLevel

  /** A file whose stat succeeds, and a readable directory. */
  function F(name: Name, size: nat): Node { File(name, size, true) }
  function D(name: Name, children: seq<Node>): Node { Dir(name, children, true) }

  /** A stat-able file adds its size and is recorded iff it reaches the
      threshold. */
  lemma FileVisit(path: string, name: Name, size: nat, t: nat, ex: set<string>)
    requires name !in ex
    ensures Visit(path, F(name, size), t, ex)
         == WalkResult(size, if size >= t then multiset{FileInfo(Join(path, name), size, false)} else multiset{})
  {
  }

  /** A directory holding one file adds that file's size, and the file and the
      directory are each recorded iff that size reaches the threshold. */
  lemma LeafDirVisit(path: string, name: Name, file: Name, size: nat, t: nat, ex: set<string>)
    requires name !in ex && file !in ex
    ensures Visit(path, D(name, [F(file, size)]), t, ex)
         == WalkResult(size,
              (if size >= t then multiset{FileInfo(Join(Join(path, name), file), size, false)} else multiset{})
              + (if size >= t then multiset{FileInfo(Join(path, name), size, true)} else multiset{}))
  {
    assert [F(file, size)][1..] == [];
    FileVisit(Join(path, name), file, size, t, ex);
    var sub := WalkDir(Join(path, name), D(name, [F(file, size)]), t, ex);
    assert sub == WalkEntries(Join(path, name), [F(file, size)], t, ex);
    assert sub == Visit(Join(path, name), F(file, size), t, ex).Plus(WalkEntries(Join(path, name), [], t, ex));
  }

  /** A listing of two entries contributes what its entries contribute. */
  lemma WalkTwo(path: string, a: Node, b: Node, t: nat, ex: set<string>)
    ensures WalkEntries(path, [a, b], t, ex) == WalkResult(
      Visit(path, a, t, ex).total + Visit(path, b, t, ex).total,
      Visit(path, a, t, ex).found + Visit(path, b, t, ex).found)
  {
    assert [a, b][1..] == [b];
    assert [b][1..] == [];
    assert WalkEntries(path, [b], t, ex) == Visit(path, b, t, ex).Plus(WalkEntries(path, [], t, ex));
  }

  /** A listing of three entries contributes what its entries contribute. */
  lemma WalkThree(path: string, a: Node, b: Node, c: Node, t: nat, ex: set<string>)
    ensures WalkEntries(path, [a, b, c], t, ex) == WalkResult(
      Visit(path, a, t, ex).total + Visit(path, b, t, ex).total + Visit(path, c, t, ex).total,
      Visit(path, a, t, ex).found + Visit(path, b, t, ex).found + Visit(path, c, t, ex).found)
  {
    assert [a, b, c][1..] == [b, c];
    WalkTwo(path, b, c, t, ex);
  }

  /** The entry names the test trees use. */
  const RootName: Name := "T"
  const File1: Name := "file1.txt"
  const File2: Name := "file2.txt"
  const File3: Name := "file3.txt"
  const Subdir1: Name := "subdir1"
  const Subdir2: Name := "subdir2"

  /** Three small files, two of them in subdirectories, threshold 1: every
      file and both subdirectories are recorded and the total is 11, wherever
      the temporary directory T lies. */
  lemma BasicTraversal(T: string)
    ensures WalkDir(T, D(RootName, [F(File1, 5), D(Subdir1, [F(File2, 5)]), D(Subdir2, [F(File3, 1)])]), 1, {})
         == WalkResult(11, multiset{
              FileInfo(Join(T, File1), 5, false),
              FileInfo(Join(Join(T, Subdir1), File2), 5, false),
              FileInfo(Join(Join(T, Subdir2), File3), 1, false),
              FileInfo(Join(T, Subdir1), 5, true),
              FileInfo(Join(T, Subdir2), 1, true)})
  {
    WalkThree(T, F(File1, 5), D(Subdir1, [F(File2, 5)]), D(Subdir2, [F(File3, 1)]), 1, {});
    FileVisit(T, File1, 5, 1, {});
    LeafDirVisit(T, Subdir1, File2, 5, 1, {});
    LeafDirVisit(T, Subdir2, File3, 1, 1, {});
  }

  const DirA: Name := "dirA"
  const DirB: Name := "dirB"
  const FileA: Name := "fileA.txt"
  const FileB: Name := "fileB.txt"
  const IncludedDir: Name := "included_dir"
  const ExcludedDir: Name := "excluded_dir"
  const AnotherFile: Name := "another_file.txt"

  /** A file below the threshold is counted in the total but not recorded. */
  lemma SmallFileFiltered(T: string)
    ensures WalkDir(T, D(RootName, [F(File1, 5), F(File2, 1)]), 5, {})
         == WalkResult(6, multiset{FileInfo(Join(T, File1), 5, false)})
  {
    WalkTwo(T, F(File1, 5), F(File2, 1), 5, {});
    FileVisit(T, File1, 5, 5, {});
    FileVisit(T, File2, 1, 5, {});
  }

  /** A directory below the threshold is counted in the total but not
      recorded, and neither is its file. */
  lemma SmallDirectoryFiltered(T: string)
    ensures WalkDir(T, D(RootName, [D(DirA, [F(FileA, 3)]), D(DirB, [F(FileB, 6)])]), 5, {})
         == WalkResult(9, multiset{
              FileInfo(Join(Join(T, DirB), FileB), 6, false),
              FileInfo(Join(T, DirB), 6, true)})
  {
    WalkTwo(T, D(DirA, [F(FileA, 3)]), D(DirB, [F(FileB, 6)]), 5, {});
    LeafDirVisit(T, DirA, FileA, 3, 5, {});
    LeafDirVisit(T, DirB, FileB, 6, 5, {});
  }

  /** An excluded directory contributes neither bytes nor records. */
  lemma ExcludedDirectorySkipped(T: string)
    ensures WalkDir(T, D(RootName, [D(IncludedDir, [F(File1, 3)]), D(ExcludedDir, [F(File2, 4)]), F(AnotherFile, 5)]), 1, {ExcludedDir})
         == WalkResult(8, multiset{
              FileInfo(Join(Join(T, IncludedDir), File1), 3, false),
              FileInfo(Join(T, AnotherFile), 5, false),
              FileInfo(Join(T, IncludedDir), 3, true)})
  {
    var ex := {ExcludedDir};
    WalkThree(T, D(IncludedDir, [F(File1, 3)]), D(ExcludedDir, [F(File2, 4)]), F(AnotherFile, 5), 1, ex);
    LeafDirVisit(T, IncludedDir, File1, 3, 1, ex);
    assert Visit(T, D(ExcludedDir, [F(File2, 4)]), 1, ex) == Nothing;
    FileVisit(T, AnotherFile, 5, 1, ex);
  }

  /** Sizes below 1024 print as a plain byte count. */
  lemma ByteRenderings()
    ensures ByteRendering(0) == "0 B"
    ensures ByteRendering(100) == "100 B"
    ensures ByteRendering(1023) == "1023 B"
  {
  }

  /** The units the tests expect: 1023 in bytes, 1536 in KiB, 1024 * 1024 in
      MiB, 2 * 1024^3 in GiB and 2345678901234 in TiB; no other unit fits
      any of them. */
  lemma UnitChoices(s: Scale)
    ensures ScaleFits(1023, s) <==> s == Bytes
    ensures ScaleFits(1536, s) <==> s == Binary(0, 1024)
    ensures ScaleFits(1024 * 1024, s) <==> s == Binary(1, 1024 * 1024)
    ensures ScaleFits(2 * 1024 * 1024 * 1024, s) <==> s == Binary(2, 1024 * 1024 * 1024)
    ensures ScaleFits(2345678901234, s) <==> s == Binary(3, 1024 * 1024 * 1024 * 1024)
    ensures UnitLabel(Binary(3, 1024 * 1024 * 1024 * 1024)) == "TiB"
  {
    assert Pow1024(1) == 1024;
    assert Pow1024(4) == 1024 * 1024 * 1024 * 1024;
    if ScaleFits(1023, s) { ScaleUnique(1023, s, Bytes); }
    if ScaleFits(1536, s) { ScaleUnique(1536, s, Binary(0, 1024)); }
    if ScaleFits(1024 * 1024, s) { ScaleUnique(1024 * 1024, s, Binary(1, 1024 * 1024)); }
    if ScaleFits(2 * 1024 * 1024 * 1024, s) { ScaleUnique(2 * 1024 * 1024 * 1024, s, Binary(2, 1024 * 1024 * 1024)); }
    if ScaleFits(2345678901234, s) { ScaleUnique(2345678901234, s, Binary(3, 1024 * 1024 * 1024 * 1024)); }
  }

  /** The remaining sizes of the same table: 1024, 1.5 * 1024^2 and 1024^4
      sit exactly at or between unit boundaries and take KiB, MiB and TiB;
      0 and 100 stay in bytes. */
  lemma UnitBoundaries(s: Scale)
    ensures ScaleFits(0, s) <==> s == Bytes
    ensures ScaleFits(100, s) <==> s == Bytes
    ensures ScaleFits(1024, s) <==> s == Binary(0, 1024)
    ensures ScaleFits(1572864, s) <==> s == Binary(1, 1024 * 1024)
    ensures ScaleFits(1024 * 1024 * 1024 * 1024, s) <==> s == Binary(3, 1024 * 1024 * 1024 * 1024)
  {
    assert Pow1024(1) == 1024;
    assert Pow1024(4) == 1024 * 1024 * 1024 * 1024;
    if ScaleFits(0, s) { ScaleUnique(0, s, Bytes); }
    if ScaleFits(100, s) { ScaleUnique(100, s, Bytes); }
    if ScaleFits(1024, s) { ScaleUnique(1024, s, Binary(0, 1024)); }
    if ScaleFits(1572864, s) { ScaleUnique(1572864, s, Binary(1, 1024 * 1024)); }
    if ScaleFits(1024 * 1024 * 1024 * 1024, s) { ScaleUnique(1024 * 1024 * 1024 * 1024, s, Binary(3, 1024 * 1024 * 1024 * 1024)); }
  }

  /** The unit names the tests print: KiB, MiB, GiB and TiB for the four
      binary scales. */
  lemma UnitLabels(divisor: nat)
    ensures UnitLabel(Binary(0, divisor)) == "KiB"
    ensures UnitLabel(Binary(1, divisor)) == "MiB"
    ensures UnitLabel(Binary(2, divisor)) == "GiB"
    ensures UnitLabel(Binary(3, divisor)) == "TiB"
  {
  }

  /** Splitting the pieces of a flag back out. */
  lemma SplitsInto(flag: string, parts: seq<string>)
    requires |parts| >= 1 && JoinWith(parts, ',') == flag
    requires forall i :: 0 <= i < |parts| ==> ',' !in parts[i]
    ensures Split(flag, ',') == parts
  {
    SplitJoin(parts, ',');
  }

  /** The names kept from trimmed pieces: the non-empty ones. */
  lemma Kept(trimmed: seq<string>, names: set<string>)
    requires forall n :: n in names <==> n != [] && n in trimmed
    ensures NonEmptyNames(trimmed) == names
  {
    forall n
      ensures n in NonEmptyNames(trimmed) <==> n in names
    {
      NonEmptyNamesMembers(trimmed, n);
    }
  }

  /** The default flag splits into proc, dev and sys. */
  lemma DefaultSplit()
    ensures Split(DefaultFlag, ',') == ["proc", "dev", "sys"]
  {
    var parts := ["proc", "dev", "sys"];
    assert JoinWith(parts, ',') == DefaultFlag by {
      assert parts[1..] == ["dev", "sys"];
      assert parts[1..][1..] == ["sys"];
    }
    SplitsInto(DefaultFlag, parts);
  }

  /** The default pieces carry no white space to trim. */
  lemma DefaultTrimmed()
    ensures TrimAll(["proc", "dev", "sys"]) == ["proc", "dev", "sys"]
  {
    var parts := ["proc", "dev", "sys"];
    TrimSpaceIsMiddle("proc", 0, 4);
    TrimSpaceIsMiddle("dev", 0, 3);
    TrimSpaceIsMiddle("sys", 0, 3);
    assert parts[1..] == ["dev", "sys"];
    assert parts[1..][1..] == ["sys"];
    assert parts[1..][1..][1..] == [];
  }

  /** All three default pieces are kept as names. */
  lemma DefaultNames()
    ensures NonEmptyNames(["proc", "dev", "sys"]) == {"proc", "dev", "sys"}
  {
    Kept(["proc", "dev", "sys"], {"proc", "dev", "sys"});
  }

  /** A flag that splits like the default one (DefaultSplit) excludes proc,
      dev and sys, and nothing else. */
  lemma DefaultExcluded(flag: string, n: string)
    requires Split(flag, ',') == ["proc", "dev", "sys"]
    ensures n in ExcludeSetOf(flag) <==> n in {"proc", "dev", "sys"}
  {
    DefaultTrimmed();
    DefaultNames();
  }

  /** " a , ,b" splits into " a ", " " and "b". */
  lemma BlanksSplit()
    ensures Split(" a , ,b", ',') == [" a ", " ", "b"]
  {
    var parts := [" a ", " ", "b"];
    assert JoinWith(parts, ',') == " a , ,b" by {
      assert parts[1..] == [" ", "b"];
      assert parts[1..][1..] == ["b"];
    }
    SplitsInto(" a , ,b", parts);
  }

  /** Trimming " a ", " " and "b" leaves "a", an empty piece and "b". */
  lemma BlanksTrimmed()
    ensures TrimAll([" a ", " ", "b"]) == ["a", "", "b"]
  {
    var parts := [" a ", " ", "b"];
    TrimSpaceIsMiddle(" a ", 1, 2);
    TrimSpaceIsMiddle(" ", 1, 1);
    TrimSpaceIsMiddle("b", 0, 1);
    assert " a "[1..2] == "a";
    assert " "[1..1] == "";
    assert "b"[0..1] == "b";
    assert parts[1..] == [" ", "b"];
    assert parts[1..][1..] == ["b"];
    assert parts[1..][1..][1..] == [];
  }

  /** For a flag that splits like " a , ,b" (BlanksSplit), blanks around names
      are trimmed and the piece left empty is dropped. */
  lemma BlanksAndEmptyPieces(flag: string)
    requires Split(flag, ',') == [" a ", " ", "b"]
    ensures ExcludeSetOf(flag) == {"a", "b"}
  {
    BlanksTrimmed();
    Kept(["a", "", "b"], {"a", "b"});
  }

  /** "excluded_dir" is a single piece. */
  lemma SingleSplit()
    ensures Split("excluded_dir", ',') == ["excluded_dir"]
  {
    SplitsInto("excluded_dir", ["excluded_dir"]);
  }

  /** A flag that is the single piece "excluded_dir" (SingleSplit) excludes
      just that name. */
  lemma SingleExclude(flag: string)
    requires Split(flag, ',') == ["excluded_dir"]
    ensures ExcludeSetOf(flag) == {"excluded_dir"}
  {
    TrimSpaceIsMiddle("excluded_dir", 0, 12);
    assert ["excluded_dir"][1..] == [];
    assert TrimAll(["excluded_dir"]) == ["excluded_dir"];
    Kept(["excluded_dir"], {"excluded_dir"});
  }

  /** -exclude=excluded_dir on the directory excluded_dir: it is not scanned. */
  lemma TopLevelDirectoryExcluded(flag: string)
    requires Split(flag, ',') == ["excluded_dir"]
    ensures Scan("excluded_dir", D("excluded_dir", []), 1024, flag) == TopLevelExcluded
  {
    SingleExclude(flag);
    BaseOfBareName("excluded_dir");
  }

  /** run refuses a path that is not excluded and is not a directory. */
  lemma Refused(scanPath: string, root: Node, t: nat, flag: string)
    requires Base(scanPath) !in ExcludeSetOf(flag) && !root.Dir?
    ensures Scan(scanPath, root, t, flag) == NotADirectory
  {
  }

  /** run lists a directory that is not excluded, from what the walk of it
      returns. */
  lemma Listed(scanPath: string, root: Node, t: nat, flag: string, w: WalkResult)
    requires Base(scanPath) !in ExcludeSetOf(flag) && root.Dir?
    requires WalkDir(scanPath, root, t, ExcludeSetOf(flag)) == w
    ensures Scan(scanPath, root, t, flag)
         == Listing(w.total, if w.total >= t then w.found + multiset{FileInfo(scanPath, w.total, true)} else w.found)
  {
  }

  /** With the default exclusions, a path that names a file is refused. */
  lemma PathIsNotADirectory(flag: string)
    requires Split(flag, ',') == ["proc", "dev", "sys"]
    ensures Scan("testfile.txt", F("testfile.txt", 0), 1024, flag) == NotADirectory
  {
    DefaultExcluded(flag, "testfile.txt");
    BaseOfBareName("testfile.txt");
    Refused("testfile.txt", F("testfile.txt", 0), 1024, flag);
  }

  /** The default exclusions exclude none of the successful run's names. */
  lemma DefaultAdmits(flag: string)
    requires Split(flag, ',') == ["proc", "dev", "sys"]
    ensures "T" !in ExcludeSetOf(flag) && "file1.txt" !in ExcludeSetOf(flag)
    ensures "subdir" !in ExcludeSetOf(flag) && "file2.txt" !in ExcludeSetOf(flag)
  {
    DefaultExcluded(flag, "T");
    DefaultExcluded(flag, "file1.txt");
    DefaultExcluded(flag, "subdir");
    DefaultExcluded(flag, "file2.txt");
  }

  /** run on a directory holding a file too small to record and a
      subdirectory whose one file is large enough: the subdirectory, its file
      and the scanned directory are recorded. */
  lemma SmallFileAndLargeLeaf(scanPath: string, rootName: Name, f: Name, fsize: nat, d: Name, g: Name, gsize: nat, t: nat, flag: string)
    requires Base(scanPath) !in ExcludeSetOf(flag)
    requires f !in ExcludeSetOf(flag) && d !in ExcludeSetOf(flag) && g !in ExcludeSetOf(flag)
    requires fsize < t <= gsize
    ensures Scan(scanPath, D(rootName, [F(f, fsize), D(d, [F(g, gsize)])]), t, flag)
         == Listing(fsize + gsize, multiset{
              FileInfo(Join(Join(scanPath, d), g), gsize, false),
              FileInfo(Join(scanPath, d), gsize, true),
              FileInfo(scanPath, fsize + gsize, true)})
  {
    var ex := ExcludeSetOf(flag);
    var root := D(rootName, [F(f, fsize), D(d, [F(g, gsize)])]);
    WalkTwo(scanPath, F(f, fsize), D(d, [F(g, gsize)]), t, ex);
    FileVisit(scanPath, f, fsize, t, ex);
    LeafDirVisit(scanPath, d, g, gsize, t, ex);
    Listed(scanPath, root, t, flag, WalkDir(scanPath, root, t, ex));
  }

  const Subdir: Name := "subdir"

  /** What run finds in the successful run's tree with the default
      exclusions, for any scanned path whose base name is not excluded: the
      total 2053 and three records. */
  lemma SuccessfulScan(T: string, flag: string)
    requires Split(flag, ',') == ["proc", "dev", "sys"]
    requires Base(T) !in {"proc", "dev", "sys"}
    ensures Scan(T, D(RootName, [F(File1, 5), D(Subdir, [F(File2, 2048)])]), 1024, flag)
         == Listing(2053, multiset{
              FileInfo(Join(Join(T, Subdir), File2), 2048, false),
              FileInfo(Join(T, Subdir), 2048, true),
              FileInfo(T, 2053, true)})
  {
    DefaultAdmits(flag);
    DefaultExcluded(flag, Base(T));
    SmallFileAndLargeLeaf(T, RootName, File1, 5, Subdir, File2, 2048, 1024, flag);
  }

  /** The paths recorded below the scanned path end in "subdir" and
      "subdir/file2.txt", the text the successful run's output must hold. */
  lemma SuccessfulPaths(T: string)
    ensures Join(T, Subdir) == Prefix(T) + "subdir"
    ensures Join(Join(T, Subdir), File2) == Prefix(T) + "subdir/file2.txt"
  {
    PrefixOfJoin(T, Subdir);
  }

  /** The successful run at threshold 1K with the default exclusions lists
      the scanned directory (2053 bytes), then subdir, then subdir/file2.txt,
      and nothing else. */
  lemma SuccessfulRun(T: string, flag: string, listing: seq<FileInfo>)
    requires Split(flag, ',') == ["proc", "dev", "sys"]
    requires Base(T) !in {"proc", "dev", "sys"}
    requires var o := Scan(T, D(RootName, [F(File1, 5), D(Subdir, [F(File2, 2048)])]), 1024, flag);
      o.Listing? && Sorted(listing) && multiset(listing) == o.found
    ensures listing == [
      FileInfo(T, 2053, true),
      FileInfo(Prefix(T) + "subdir", 2048, true),
      FileInfo(Prefix(T) + "subdir/file2.txt", 2048, false)]
  {
    SuccessfulScan(T, flag);
    SuccessfulPaths(T);
    var expected := [
      FileInfo(T, 2053, true),
      FileInfo(Join(T, Subdir), 2048, true),
      FileInfo(Join(Join(T, Subdir), File2), 2048, false)];
    assert Sorted(expected);
    SortedUnique(listing, expected);
  }

  /** The current directory's base name is "." itself, and joining onto it
      adds no "./" in front. */
  lemma CurrentDirectoryPaths()
    ensures Base(".") == "."
    ensures Join(".", Subdir) == "subdir"
    ensures Join(Join(".", Subdir), File2) == "subdir/file2.txt"
  {
    assert StripTrailing(".") == ".";
    assert "."[..0] == [];
    assert LastElement(".") == [] + ".";
    assert Prefix("subdir") == "subdir/";
  }

  /** What lies beneath the current directory: never an absolute path, a
      path climbing out through "..", or one spelled with a leading "./". */
  lemma BeneathCurrentDirectory()
    ensures !Beneath(".", "/etc/passwd") && !Beneath(".", "../x")
    ensures !Beneath(".", "..") && !Beneath(".", "./a")
  {
    assert Prefix(".") == [];
    NoEmptySegmentBeneath(".", "etc/passwd");
    assert "" + [Separator] + "etc/passwd" == "/etc/passwd";
    NoDotSegmentBeneath(".", "..", "/x");
    assert "" + ".." + "/x" == "../x";
    NoDotSegmentBeneath(".", "..", []);
    assert "" + ".." + [] == "..";
    NoDotSegmentBeneath(".", ".", "/a");
    assert "" + "." + "/a" == "./a";
  }

  /** Scanning the current directory ".", the usual way to run the tool: the
      entries' paths carry no "./" in front, and the directory itself is
      listed as ".". */
  lemma CurrentDirectoryScan(flag: string)
    requires Split(flag, ',') == ["proc", "dev", "sys"]
    ensures Scan(".", D(RootName, [F(File1, 5), D(Subdir, [F(File2, 2048)])]), 1024, flag)
         == Listing(2053, multiset{
              FileInfo("subdir/file2.txt", 2048, false),
              FileInfo("subdir", 2048, true),
              FileInfo(".", 2053, true)})
  {
    DefaultAdmits(flag);
    CurrentDirectoryPaths();
    DefaultExcluded(flag, ".");
    SmallFileAndLargeLeaf(".", RootName, File1, 5, Subdir, File2, 2048, 1024, flag);
  }
}

=== FILE: units.dfy ===
/** The integer part of humanReadableSize: choosing between the byte
    rendering and a binary prefix, and which prefix. */
module Units {

  /** Sizes are Go uint64 values. */
  const Uint64Limit: nat := 0x1_0000_0000_0000_0000

  /** div is a Go int64. */
  const Int64Limit: nat := 0x8000_0000_0000_0000

  /** The binary prefix letters humanReadableSize indexes by `exp`. */
  const PrefixLetters: string := "KMGTPE"

  function Pow1024(e: nat): (r: nat)
    ensures r >= 1
  {
    if e == 0 then 1 else 1024 * Pow1024(e - 1)
  }

  /** How a size is rendered: as a plain byte count, or divided by `div` with
      the prefix letter at `exp`. */
  datatype Scale = Bytes | Binary(exp: nat, div: nat)

  /** The rendering the source intends for `size`: bytes below 1024, and
      otherwise the largest binary unit whose scaled value is at least 1
      (and so below 1024), with a prefix letter that exists. */
  predicate ScaleFits(size: nat, s: Scale)
  {
    match s
    case Bytes => size < 1024
    case Binary(exp, div) =>
      exp < |PrefixLetters| && div == Pow1024(exp + 1) && div <= size < 1024 * div
  }

  /** humanReadableSize's unit selection: the early return for sizes below
      1024, then the loop that divides by 1024 while the quotient is still at
      least 1024. For every uint64 size the chosen unit fits the size, its
      prefix letter exists, and `div` never overflows int64. */
  method SelectScale(size: nat) returns (s: Scale)
    requires size < Uint64Limit
    ensures ScaleFits(size, s)
    ensures s.Binary? ==> s.div < Int64Limit && 1 <= size / s.div < 1024
  {
    if size < 1024 {
      return Bytes;
    }
    var div, exp := 1024, 0;
    var n := size / 1024;
    while n >= 1024
      invariant div == Pow1024(exp + 1)
      invariant n == size / div && div <= size
      decreases n
    {
      LoopStep(size, div, n);
      div := div * 1024;
      exp := exp + 1;
      n := n / 1024;
    }
    LoopExit(size, div, n);
    ExpBound(size, exp);
    PowMonotone(exp + 1, 6);
    s := Binary(exp, div);
  }

  /** One turn of the loop keeps n equal to size / div and div at most size. */
  lemma LoopStep(size: nat, div: nat, n: nat)
    requires div > 0 && n == size / div && n >= 1024
    ensures n / 1024 == size / (div * 1024)
    ensures div * 1024 <= size
  {
    DivDiv(size, div, 1024);
    assert div * 1024 <= div * n;
    assert div * n <= size;
  }

  /** When the loop stops, size / div lies in [1, 1024). */
  lemma LoopExit(size: nat, div: nat, n: nat)
    requires div > 0 && n == size / div && n < 1024 && div <= size
    ensures size < 1024 * div
    ensures 1 <= size / div < 1024
  {
    assert size == div * n + size % div;
    MulAtMost(div, n, 1023);
  }

  /** Multiplying by a smaller factor gives a smaller product. */
  lemma {:induction false} MulAtMost(d: nat, x: nat, y: nat)
    requires x <= y
    ensures d * x <= d * y
  {
    if x < y {
      MulGap(x, y, d);
    }
  }

  /** Dividing twice is dividing by the product. */
  lemma DivDiv(a: nat, b: nat, c: nat)
    requires b > 0 && c > 0
    ensures a / b / c == a / (b * c)
  {
    var q, r := a / b, a % b;
    var q2, r2 := q / c, q % c;
    Regroup(q2, c, r2, b);
    MulGap(r2, c, b);
    assert a == q2 * (b * c) + (r2 * b + r);
    DivUnique(a, b * c, q2, r2 * b + r);
  }

  /** (q * c + r) * b regrouped around the product b * c. */
  lemma Regroup(q: nat, c: nat, r: nat, b: nat)
    ensures (q * c + r) * b == q * (b * c) + r * b
  {
    assert (q * c + r) * b == q * c * b + r * b;
    assert q * c * b == q * (b * c);
  }

  /** A quotient is determined by any division with a proper remainder. */
  lemma DivUnique(a: nat, d: nat, q: nat, r: nat)
    requires d > 0 && r < d && a == q * d + r
    ensures a / d == q
  {
    var q', r' := a / d, a % d;
    assert q' * d + r' == q * d + r;
    if q' < q {
      MulGap(q', q, d);
    } else if q < q' {
      MulGap(q, q', d);
    }
  }

  lemma {:induction false} MulGap(x: nat, y: nat, d: nat)
    requires x < y
    ensures x * d + d <= y * d
    decreases y
  {
    assert y * d == (y - 1) * d + d;
    if x < y - 1 {
      MulGap(x, y - 1, d);
    }
  }

  lemma {:induction false} PowMonotone(i: nat, j: nat)
    requires i <= j
    ensures Pow1024(i) <= Pow1024(j)
    decreases j
  {
    if i < j {
      PowMonotone(i, j - 1);
    }
  }

  /** A uint64 size is below 1024^7, so the loop stops by exp == 5. */
  lemma ExpBound(size: nat, exp: nat)
    requires size < Uint64Limit && Pow1024(exp + 1) <= size
    ensures exp <= 5
  {
    if exp > 5 {
      PowMonotone(7, exp + 1);
    }
  }

  /** At most one scale fits a size, so SelectScale's result is the only
      rendering that satisfies the intended rule. */
  lemma ScaleUnique(size: nat, s1: Scale, s2: Scale)
    requires ScaleFits(size, s1) && ScaleFits(size, s2)
    ensures s1 == s2
  {
    if s1.Binary? && s2.Binary? {
      if s1.exp < s2.exp {
        PowMonotone(s1.exp + 2, s2.exp + 1);
      } else if s2.exp < s1.exp {
        PowMonotone(s2.exp + 2, s1.exp + 1);
      }
    }
  }

  /** The unit label printed after the number. */
  function UnitLabel(s: Scale): string
    requires s.Binary? ==> s.exp < |PrefixLetters|
  {
    match s
    case Bytes => "B"
    case Binary(exp, _) => [PrefixLetters[exp]] + "iB"
  }

  /** The decimal digits of a natural number, as %d prints it. */
  function Decimal(n: nat): (r: string)
    ensures |r| >= 1
    ensures forall i :: 0 <= i < |r| ==> '0' <= r[i] <= '9'
    ensures r[0] == '0' <==> n == 0
    ensures |r| == 1 || r[0] != '0'
  {
    if n < 10 then [DigitChar(n)] else Decimal(n / 10) + [DigitChar(n % 10)]
  }

  function DigitChar(d: nat): char
    requires d < 10
  {
    (('0' as int) + d) as char
  }

  /** The number a string of decimal digits denotes. */
  function DecimalValue(s: string): nat
    requires forall i :: 0 <= i < |s| ==> '0' <= s[i] <= '9'
  {
    if s == [] then 0 else 10 * DecimalValue(s[..|s| - 1]) + (s[|s| - 1] as int - '0' as int)
  }

  /** The digits %d prints read back as the number printed. */
  lemma {:induction false} DecimalRoundTrip(n: nat)
    ensures DecimalValue(Decimal(n)) == n
  {
    if n >= 10 {
      DecimalRoundTrip(n / 10);
      var r := Decimal(n);
      assert r[..|r| - 1] == Decimal(n / 10);
    }
  }

  /** The whole output of humanReadableSize below 1024: the count in
      decimal, a space, and "B". */
  function ByteRendering(size: nat): (r: string)
    requires size < 1024
    ensures |r| >= 3 && r[|r| - 2..] == " B"
    ensures forall i :: 0 <= i < |r| - 2 ==> '0' <= r[i] <= '9'
    ensures DecimalValue(r[..|r| - 2]) == size
    ensures |r| == 3 || r[0] != '0'
  {
    DecimalRoundTrip(size);
    var r := Decimal(size) + " B";
    assert r[..|r| - 2] == Decimal(size);
    r
  }
}

=== FILE: walk.dfy ===
/** walkDirRecursive as a fold over the tree. The goroutine per subdirectory,
    the channel of subdirectory sizes and the mutex around the result slice only
    decide the order in which sizes are added and records appended; a sum and a
    multiset do not depend on that order, so the walk is modelled as a
    sequential fold that returns its total and its records. */
module Walk {
  import opened Entries
  import opened FsTree

  /** What one call contributes: the bytes it adds to its caller's total and
      the records it appends to the shared result collection. */
  datatype WalkResult = WalkResult(total: nat, found: multiset<FileInfo>)
  {
    /** Two independent contributions taken together. */
    function Plus(other: WalkResult): WalkResult
    {
      WalkResult(total + other.total, found + other.found)
    }
  }

  /** The contribution of an entry that is skipped. */
  const Nothing: WalkResult := WalkResult(0, multiset{})

  /** walkDirRecursive(path, threshold, exclude) on the directory `dir` found
      at `path`. The directory itself is never recorded here: its caller does
      that once the returned total is known. */
  function WalkDir(path: string, dir: Node, threshold: nat, exclude: set<string>): WalkResult
    requires dir.Dir?
    decreases dir, 0
  {
    if !dir.readable then Nothing
    else WalkEntries(path, dir.children, threshold, exclude)
  }

  /** The loop over the entries os.ReadDir returned for `path`. */
  function WalkEntries(path: string, entries: seq<Node>, threshold: nat, exclude: set<string>): WalkResult
    decreases entries
  {
    if entries == [] then Nothing
    else Visit(path, entries[0], threshold, exclude).Plus(WalkEntries(path, entries[1..], threshold, exclude))
  }

  /** One iteration of that loop: an excluded name is skipped; a subdirectory
      is walked and then recorded if its total reaches the threshold; a file
      whose stat fails is skipped; any other file is recorded if its size
      reaches the threshold. Every size that is not skipped is added to the
      parent's total whether or not it was recorded. */
  function Visit(path: string, entry: Node, threshold: nat, exclude: set<string>): WalkResult
    decreases entry, 1
  {
    if entry.name in exclude then Nothing
    else
      var full := Join(path, entry.name);
      match entry
      case Dir(_, _, _) =>
        var sub := WalkDir(full, entry, threshold, exclude);
        WalkResult(sub.total, if sub.total >= threshold then AddResult(sub.found, full, sub.total, true) else sub.found)
      case File(_, size, statOk) =>
        if !statOk then Nothing
        else WalkResult(size, if size >= threshold then AddResult(multiset{}, full, size, false) else multiset{})
  }

  /** Every record of a walk lies strictly beneath the walked directory, has
      reached the threshold, and is no larger than the walk's total. */
  lemma {:induction false} WalkEntriesBounds(path: string, entries: seq<Node>, threshold: nat, exclude: set<string>)
    ensures var r := WalkEntries(path, entries, threshold, exclude);
      forall e :: e in r.found ==> Beneath(path, e.path) && threshold <= e.size <= r.total
    decreases entries
  {
    if entries != [] {
      VisitBounds(path, entries[0], threshold, exclude);
      WalkEntriesBounds(path, entries[1..], threshold, exclude);
      var r := WalkEntries(path, entries, threshold, exclude);
      forall e | e in r.found
        ensures Beneath(path, e.path)
      {
        if e in Visit(path, entries[0], threshold, exclude).found {
          JoinIsBeneath(path, entries[0].name, e.path);
        }
      }
    }
  }

  /** The same for one entry: its records lie at or under the entry's path. */
  lemma {:induction false} VisitBounds(path: string, entry: Node, threshold: nat, exclude: set<string>)
    ensures var r := Visit(path, entry, threshold, exclude);
      forall e :: e in r.found ==> AtOrUnder(Join(path, entry.name), e.path) && threshold <= e.size <= r.total
    decreases entry, 1
  {
    if entry.name !in exclude && entry.Dir? && entry.readable {
      WalkEntriesBounds(Join(path, entry.name), entry.children, threshold, exclude);
    }
  }

  /** Every record of walkDirRecursive on `dir` lies strictly beneath `path`,
      has reached the threshold, and is no larger than the returned total. */
  lemma WalkDirBounds(path: string, dir: Node, threshold: nat, exclude: set<string>)
    requires dir.Dir?
    ensures var r := WalkDir(path, dir, threshold, exclude);
      forall e :: e in r.found ==> Beneath(path, e.path) && threshold <= e.size <= r.total
  {
    WalkEntriesBounds(path, dir.children, threshold, exclude);
  }
}

=== FILE: walk_loop.dfy ===
/** The body of walkDirRecursive as the loop it is written as: one pass over
    the entries that adds file sizes to a running total and appends records,
    sending each subdirectory's total to a channel, then a second pass that
    drains the channel into the running total. */
module WalkLoop {
  import opened Entries
  import opened FsTree
  import opened Walk
  import opened WalkProps

  /** The sum of the sizes waiting in the channel. */
  function Sum(sizes: seq<nat>): nat
  {
    if sizes == [] then 0 else Sum(sizes[..|sizes| - 1]) + sizes[|sizes| - 1]
  }

  /** The loops over one listing compute what the fold WalkEntries does. */
  method ScanListing(path: string, entries: seq<Node>, threshold: nat, exclude: set<string>)
    returns (totalSize: nat, found: multiset<FileInfo>)
    ensures WalkResult(totalSize, found) == WalkEntries(path, entries, threshold, exclude)
    decreases entries, 2
  {
    totalSize := 0;
    found := multiset{};
    var channel: seq<nat> := [];
    var i := 0;
    assert entries[..i] == [];
    while i < |entries|
      invariant i <= |entries|
      invariant WalkResult(totalSize + Sum(channel), found) == WalkEntries(path, entries[..i], threshold, exclude)
    {
      totalSize, channel, found := Iterate(path, entries, i, threshold, exclude, totalSize, channel, found);
      i := i + 1;
    }
    assert entries[..i] == entries;
    totalSize := Drain(totalSize, channel);
  }

  /** The i-th pass of the first loop, from the state the earlier passes
      left: the running total, the channel and the records now account for
      one more entry. */
  method Iterate(path: string, entries: seq<Node>, i: nat, threshold: nat, exclude: set<string>,
                 running: nat, channel: seq<nat>, found: multiset<FileInfo>)
    returns (running': nat, channel': seq<nat>, found': multiset<FileInfo>)
    requires i < |entries|
    requires WalkResult(running + Sum(channel), found) == WalkEntries(path, entries[..i], threshold, exclude)
    ensures WalkResult(running' + Sum(channel'), found') == WalkEntries(path, entries[..i + 1], threshold, exclude)
    ensures channel <= channel' && |channel'| <= |channel| + 1
    decreases entries, 1
  {
    var fileBytes, sent, records := VisitEntry(path, entries[i], threshold, exclude);
    WalkSnoc(path, entries, i, threshold, exclude);
    StepAdds(running, channel, found, fileBytes, sent, records);
    running', channel', found' := running + fileBytes, channel + sent, found + records;
  }

  /** One iteration of the first loop. A subdirectory is walked by a
      recursive call, as its goroutine does, and its total is not added to
      the running total but sent on the channel; a file's size is added
      directly. */
  method VisitEntry(path: string, entry: Node, threshold: nat, exclude: set<string>)
    returns (fileBytes: nat, sent: seq<nat>, records: multiset<FileInfo>)
    ensures |sent| <= 1 && (fileBytes > 0 || |sent| == 1 ==> entry.name !in exclude)
    ensures !entry.Dir? ==> sent == []
    ensures entry.Dir? ==> fileBytes == 0 && (|sent| == 1 <==> entry.name !in exclude)
    ensures WalkResult(fileBytes + Sum(sent), records) == Visit(path, entry, threshold, exclude)
    decreases entry, 1
  {
    fileBytes, sent, records := 0, [], multiset{};
    if entry.name in exclude {
      return;
    }
    var fullPath := Join(path, entry.name);
    if entry.Dir? {
      // The goroutine: walk the subdirectory recursively, record it once its
      // total is known, and send the total on the channel.
      var subdirSize, subFound := WalkDirRecursive(fullPath, entry, threshold, exclude);
      records := subFound;
      if subdirSize >= threshold {
        records := AddResult(records, fullPath, subdirSize, true);
      }
      sent := [subdirSize];
      assert Sum(sent) == Sum([]) + subdirSize;
    } else if entry.statOk {
      if entry.size >= threshold {
        records := AddResult(records, fullPath, entry.size, false);
      }
      fileBytes := entry.size;
    }
  }

  /** The second loop: after wg.Wait() and close(sizeChannel), every size in
      the channel is added to the running total. */
  method Drain(running: nat, channel: seq<nat>) returns (totalSize: nat)
    ensures totalSize == running + Sum(channel)
  {
    totalSize := running;
    var j := 0;
    while j < |channel|
      invariant j <= |channel|
      invariant totalSize + Sum(channel[j..]) == running + Sum(channel)
    {
      assert channel[j..] == [channel[j]] + channel[j + 1..];
      SumAppend([channel[j]], channel[j + 1..]);
      assert Sum([channel[j]]) == Sum([]) + channel[j];
      totalSize := totalSize + channel[j];
      j := j + 1;
    }
    assert channel[j..] == [];
  }

  /** Extending the walked prefix by one entry adds that entry's visit. */
  lemma WalkSnoc(path: string, entries: seq<Node>, i: nat, threshold: nat, exclude: set<string>)
    requires i < |entries|
    ensures WalkEntries(path, entries[..i + 1], threshold, exclude)
         == WalkEntries(path, entries[..i], threshold, exclude).Plus(Visit(path, entries[i], threshold, exclude))
  {
    assert entries[..i + 1] == entries[..i] + [entries[i]];
    WalkAppend(path, entries[..i], [entries[i]], threshold, exclude);
    assert [entries[i]][1..] == [];
    assert WalkEntries(path, [entries[i]], threshold, exclude) == Visit(path, entries[i], threshold, exclude).Plus(Nothing);
  }

  /** One iteration's bytes, sends and records add its visit to what the
      running total, the channel and the records held before. */
  lemma StepAdds(running: nat, channel: seq<nat>, found: multiset<FileInfo>,
                 fileBytes: nat, sent: seq<nat>, records: multiset<FileInfo>)
    ensures WalkResult(running + fileBytes + Sum(channel + sent), found + records)
         == WalkResult(running + Sum(channel), found).Plus(WalkResult(fileBytes + Sum(sent), records))
  {
    SumAppend(channel, sent);
  }

  /** The sum over the channel is additive over concatenation. */
  lemma {:induction false} SumAppend(a: seq<nat>, b: seq<nat>)
    ensures Sum(a + b) == Sum(a) + Sum(b)
    decreases |b|
  {
    if b == [] {
      assert a + b == a;
    } else {
      assert (a + b)[..|a + b| - 1] == a + b[..|b| - 1];
      SumAppend(a, b[..|b| - 1]);
    }
  }

  /** walkDirRecursive with the loops: an unreadable directory returns 0 and
      appends nothing; otherwise the loops run over its listing, and each
      subdirectory is walked by a recursive call. */
  method WalkDirRecursive(path: string, dir: Node, threshold: nat, exclude: set<string>)
    returns (totalSize: nat, found: multiset<FileInfo>)
    requires dir.Dir?
    ensures WalkResult(totalSize, found) == WalkDir(path, dir, threshold, exclude)
    ensures forall e :: e in found ==> Beneath(path, e.path) && threshold <= e.size <= totalSize
    decreases dir, 0
  {
    WalkDirBounds(path, dir, threshold, exclude);
    if !dir.readable {
      return 0, multiset{};
    }
    totalSize, found := ScanListing(path, dir.children, threshold, exclude);
  }
}

=== FILE: walk_props.dfy ===
/** Properties of the walk: order independence, the role of the threshold,
    exclusion, and failures degrading to zero. */
module WalkProps {
  import opened Entries
  import opened FsTree
  import opened Walk
  import opened Reach

  /** Walking a listing in two pieces and adding the contributions is the
      same as walking it whole. */
  lemma {:induction false} WalkAppend(path: string, a: seq<Node>, b: seq<Node>, threshold: nat, exclude: set<string>)
    ensures WalkEntries(path, a + b, threshold, exclude)
         == WalkEntries(path, a, threshold, exclude).Plus(WalkEntries(path, b, threshold, exclude))
  {
    if a == [] {
      assert a + b == b;
    } else {
      assert (a + b)[0] == a[0];
      assert (a + b)[1..] == a[1..] + b;
      var head := Visit(path, a[0], threshold, exclude);
      var tail := WalkEntries(path, a[1..], threshold, exclude);
      var rest := WalkEntries(path, b, threshold, exclude);
      WalkAppend(path, a[1..], b, threshold, exclude);
      assert WalkEntries(path, a + b, threshold, exclude) == head.Plus(tail.Plus(rest));
      assert WalkEntries(path, a, threshold, exclude) == head.Plus(tail);
      PlusAssociative(head, tail, rest);
    }
  }

  lemma PlusAssociative(x: WalkResult, y: WalkResult, z: WalkResult)
    ensures x.Plus(y.Plus(z)) == x.Plus(y).Plus(z)
  {
    assert x.found + (y.found + z.found) == (x.found + y.found) + z.found;
  }

  lemma PlusSwap(x: WalkResult, y: WalkResult, z: WalkResult)
    ensures x.Plus(y.Plus(z)) == y.Plus(x.Plus(z))
  {
    assert x.found + (y.found + z.found) == y.found + (x.found + z.found);
  }

  /** The order in which os.ReadDir lists entries, and hence the order in which
      the goroutines finish and append, changes neither the total nor the
      records: any permutation of a listing walks to the same result. */
  lemma {:induction false} ListingOrderIrrelevant(path: string, a: seq<Node>, b: seq<Node>, threshold: nat, exclude: set<string>)
    requires multiset(a) == multiset(b)
    ensures WalkEntries(path, a, threshold, exclude) == WalkEntries(path, b, threshold, exclude)
    decreases |a|
  {
    if a != [] {
      assert a[0] in multiset(b);
      var k :| 0 <= k < |b| && b[k] == a[0];
      var rest := b[..k] + b[k + 1..];
      RemoveMatching(a, b, k);
      ListingOrderIrrelevant(path, a[1..], rest, threshold, exclude);
      WalkRemoveAt(path, b, k, threshold, exclude);
    } else {
      assert b == [];
    }
  }

  /** Removing matching elements from two permutations of each other leaves
      permutations of each other. */
  lemma RemoveMatching(a: seq<Node>, b: seq<Node>, k: nat)
    requires multiset(a) == multiset(b) && a != [] && k < |b| && b[k] == a[0]
    ensures multiset(a[1..]) == multiset(b[..k] + b[k + 1..])
  {
    assert a == [a[0]] + a[1..];
    assert b == b[..k] + [b[k]] + b[k + 1..];
    var rest := b[..k] + b[k + 1..];
    forall e
      ensures multiset(a[1..])[e] == multiset(rest)[e]
    {
      assert multiset(a)[e] == multiset{a[0]}[e] + multiset(a[1..])[e];
      assert multiset(b)[e] == multiset(b[..k])[e] + multiset{b[k]}[e] + multiset(b[k + 1..])[e];
    }
  }

  /** The walk of a listing is the visit of any one entry plus the walk of
      the others. */
  lemma {:induction false} WalkRemoveAt(path: string, b: seq<Node>, k: nat, threshold: nat, exclude: set<string>)
    requires k < |b|
    ensures WalkEntries(path, b, threshold, exclude)
         == Visit(path, b[k], threshold, exclude).Plus(WalkEntries(path, b[..k] + b[k + 1..], threshold, exclude))
  {
    if k == 0 {
      assert b[..k] + b[k + 1..] == b[1..];
    } else {
      var tail := b[1..];
      var others := b[..k] + b[k + 1..];
      WalkRemoveAt(path, tail, k - 1, threshold, exclude);
      assert tail[k - 1] == b[k];
      assert others == [b[0]] + (tail[..k - 1] + tail[k..]);
      assert others[0] == b[0] && others[1..] == tail[..k - 1] + tail[k..];
      PlusSwap(Visit(path, b[0], threshold, exclude), Visit(path, b[k], threshold, exclude),
               WalkEntries(path, tail[..k - 1] + tail[k..], threshold, exclude));
    }
  }

  /** A readable directory's total is the byte count of every stat-able file
      reached beneath it, skipping excluded names and unreadable
      directories; an unreadable directory's total is 0. */
  lemma DirTotalIsDiskUsage(path: string, dir: Node, threshold: nat, exclude: set<string>)
    requires dir.Dir?
    ensures WalkDir(path, dir, threshold, exclude).total
         == if dir.readable then Bytes(ReachedEntries(path, dir.children, exclude)) else 0
  {
    WalkMatchesReference(path, dir.children, threshold, exclude);
  }

  /** The threshold only decides what is recorded: the total is added
      unconditionally and does not depend on it. */
  lemma TotalIgnoresThreshold(path: string, dir: Node, t1: nat, t2: nat, exclude: set<string>)
    requires dir.Dir?
    ensures WalkDir(path, dir, t1, exclude).total == WalkDir(path, dir, t2, exclude).total
  {
    WalkMatchesReference(path, dir.children, t1, exclude);
    WalkMatchesReference(path, dir.children, t2, exclude);
  }

  /** Raising the threshold keeps exactly the records of the lower threshold
      whose size reaches the new one, so it yields a sub-multiset. */
  lemma RaisingThresholdFilters(path: string, dir: Node, t1: nat, t2: nat, exclude: set<string>)
    requires dir.Dir?
    requires t1 <= t2
    ensures forall e :: WalkDir(path, dir, t2, exclude).found[e]
                      == if e.size >= t2 then WalkDir(path, dir, t1, exclude).found[e] else 0
    ensures WalkDir(path, dir, t2, exclude).found <= WalkDir(path, dir, t1, exclude).found
  {
    var rs := ReachedEntries(path, dir.children, exclude);
    WalkMatchesReference(path, dir.children, t1, exclude);
    WalkMatchesReference(path, dir.children, t2, exclude);
    forall e
      ensures multiset(Report(rs, t2, exclude))[e]
           == if e.size >= t2 then multiset(Report(rs, t1, exclude))[e] else 0
    {
      ReportThresholdCount(rs, t1, t2, exclude, e);
    }
  }

  lemma {:induction false} ReportThresholdCount(rs: seq<Sighting>, t1: nat, t2: nat, exclude: set<string>, e: FileInfo)
    requires t1 <= t2
    ensures multiset(Report(rs, t2, exclude))[e]
         == if e.size >= t2 then multiset(Report(rs, t1, exclude))[e] else 0
  {
    if rs != [] {
      ReportThresholdCount(rs[1..], t1, t2, exclude, e);
    }
  }

  /** The walk never records the directory it was called on: every record
      lies strictly beneath it. */
  lemma RootNeverRecorded(path: string, dir: Node, threshold: nat, exclude: set<string>)
    requires dir.Dir?
    ensures forall e :: e in WalkDir(path, dir, threshold, exclude).found ==> e.path != path
  {
    WalkDirBounds(path, dir, threshold, exclude);
  }

  /** An unreadable directory contributes 0 and nothing beneath it is
      recorded; its parent still records it, with size 0, exactly when the
      threshold is 0. */
  lemma UnreadableDirCountsZero(path: string, dir: Node, threshold: nat, exclude: set<string>)
    requires dir.Dir? && !dir.readable && dir.name !in exclude
    ensures WalkDir(Join(path, dir.name), dir, threshold, exclude) == Nothing
    ensures Visit(path, dir, threshold, exclude).total == 0
    ensures Visit(path, dir, threshold, exclude).found
         == if threshold == 0 then multiset{FileInfo(Join(path, dir.name), 0, true)} else multiset{}
  {
  }

  /** A file whose stat fails, and any entry whose name is excluded,
      contributes 0 and is not recorded. */
  lemma SkippedEntriesContributeNothing(path: string, entry: Node, threshold: nat, exclude: set<string>)
    requires entry.name in exclude || (entry.File? && !entry.statOk)
    ensures Visit(path, entry, threshold, exclude) == Nothing
  {
  }

  /** A stat-able file that is not excluded adds its size to the parent and
      is recorded, as a file, exactly when its size reaches the threshold;
      nothing else is recorded for it. */
  lemma FileRecordedIffLargeEnough(path: string, file: Node, threshold: nat, exclude: set<string>)
    requires file.File? && file.statOk && file.name !in exclude
    ensures Visit(path, file, threshold, exclude).total == file.size
    ensures FileInfo(Join(path, file.name), file.size, false) in Visit(path, file, threshold, exclude).found
        <==> file.size >= threshold
    ensures |Visit(path, file, threshold, exclude).found| <= 1
    ensures Visit(path, file, threshold, exclude).found
         == if file.size >= threshold then multiset{FileInfo(Join(path, file.name), file.size, false)} else multiset{}
  {
  }

  /** A subdirectory that is not excluded adds its walked total to the parent
      and is recorded, as a directory and after that total is known, exactly
      when the total reaches the threshold; nothing else is recorded at its
      path. */
  lemma SubdirRecordedIffLargeEnough(path: string, dir: Node, threshold: nat, exclude: set<string>)
    requires dir.Dir? && dir.name !in exclude
    ensures var sub := WalkDir(Join(path, dir.name), dir, threshold, exclude);
      && Visit(path, dir, threshold, exclude).total == sub.total
      && Visit(path, dir, threshold, exclude).found[FileInfo(Join(path, dir.name), sub.total, true)]
         == (if sub.total >= threshold then 1 else 0)
      && (forall e: FileInfo :: e.path != Join(path, dir.name) ==> Visit(path, dir, threshold, exclude).found[e] == sub.found[e])
      && (forall e: FileInfo :: e.path == Join(path, dir.name) && e != FileInfo(Join(path, dir.name), sub.total, true)
            ==> Visit(path, dir, threshold, exclude).found[e] == 0)
  {
    var sub := WalkDir(Join(path, dir.name), dir, threshold, exclude);
    RootNeverRecorded(Join(path, dir.name), dir, threshold, exclude);
    assert FileInfo(Join(path, dir.name), sub.total, true) !in sub.found;
  }
}
